=== FILE: README.md ===
# HiRes Hawk: the disease-list parser, the ICD-10 resolver and the report page, in Dafny

HiRes Hawk takes a radiology report, asks a language model for the positive
diseases it mentions, and shows the report again. Each found name is marked in
bold with its number, and a table lists the names with their ICD-10 codes. This
project models the logic behind that page and proves what it does:

- `OutputParser`: `parse_disease_list`, which turns the model's free-text answer
  into an ordered list of names. It cleans the text first: whitespace, code
  fences, edge quotes and a `python` tag go. Then it tries, in order, a JSON
  array, a Python list literal, and a comma-separated list of the text with `[`
  and `]` stripped from its ends. Only when that bracket-stripped text is nothing
  but commas and whitespace does the last step run: it gives that text as one
  name, or no name when it is empty. The two library readers (`json.loads`, `ast.literal_eval`)
  are a parameter, `Decoders`. `QuotedLists` is a concrete instance built on
  `ListSyntax`.
- `ListSyntax`: a small grammar of bracketed lists of quoted strings, in JSON
  notation (RFC 8259: double quotes only) and in Python notation (single or
  double quotes). On the lists it accepts it agrees with the library readers.
  Lists it rejects may still be accepted by the libraries.
- `Icd10`: `lookup_icd10_api` and `get_icd10_code`. A name is looked up in the
  code search service, first as a whole and then word by word, and the first
  matching answer wins. If that gives no usable code and a model is at hand, the
  model is asked once, and its `CODE | Description` reply is read. The service
  (`Api`) and the model (`Llm`) are functions from a request to its outcome. A
  failed request or a raised exception is an outcome of its own.
- `App`: the page (`main.py`). It covers the run guard, the history of prompts
  and outputs shown newest first, and the rows `(number, name, code or N/A,
  description or N/A)`. It also covers the highlight loop, which replaces every
  leftmost non-overlapping occurrence of each name in turn, in the text the earlier names left behind.
- `PyStr`: the Python string operations these use: `strip` with a character set,
  `split` with a separator and without, `replace` of every leftmost
  non-overlapping occurrence (including
  the empty pattern), and decimal rendering of a number.
- `Wrappers`: `Option`, for Python's `None`.

Behaviours of the code that the lemmas make explicit:
- A comma piece made only of quotes becomes an empty name (`QuotesOnlyPieceGivesEmptyName`).
- Highlighting an empty name inserts its marker before every character and at
  the end (`HighlightEmptyName`).
- A search answer whose code is the empty string stops the word search but
  counts as no code (`EmptyCodeStopsSearch`).
- A later name that is part of an earlier one is found again inside the
  earlier name's marker (`LaterNameInsideEarlierMarker`).
- The `python` tag removal is not limited to tags: a comma list whose first name
  begins with `python`, in any letter case, loses those six letters, so
  `Pythonx, b` reads as `x` and `b` (`ParsePythonTagged`, `ParsePythonPrefixedName`).
- A model call that raises ends the run before the history is extended, so a
  comparison run whose second call raises records nothing (`RaisedCallKeepsHistory`).

The page's highlight loop uses `str.replace`, which wraps every leftmost
non-overlapping occurrence of a name, not only the first. The model follows the code.

## Model

| member | source | states |
|---|---|---|
| OutputParser.DropOpeningFence | llm_output_parser.py:12 | a leading fence goes together with the whole run of ASCII letters after it: what is kept is a suffix of the text, everything between the fence and it is a letter, and it is empty or starts with a non-letter; a text without a fence is unchanged |
| OutputParser.DropClosingFence | llm_output_parser.py:13 | a trailing fence is removed; a fence followed by one final line feed is removed and the line feed kept; any other text is unchanged |
| OutputParser.DropPythonTag | llm_output_parser.py:18 | the result is a suffix of the text, shorter exactly when the text opens with `python` in any letter case, and then by those six letters only; the whole-parser effect is stated by `ParsePythonTagged` and `ParsePythonPrefixedName` |
| OutputParser.Clean | llm_output_parser.py:10-18 | the cleaned text neither begins nor ends with whitespace |
| OutputParser.CleanKeeps | llm_output_parser.py:10-18 | a text that does not start or end with whitespace, a quote or a backtick, and does not start with `python`, is left exactly as it is |
| OutputParser.CleanBlank | llm_output_parser.py:10-18 | whitespace-only output cleans to the empty text |
| OutputParser.CleanFenced | llm_output_parser.py:10-14 | output wrapped in a code fence with any alphabetic language tag cleans to the same text as the unwrapped output |
| OutputParser.ParseFenced | llm_output_parser.py:10-45 | so a fenced answer yields the same names as the same answer without the fence |
| OutputParser.StripItems | llm_output_parser.py:23 | one item per decoded element, same length, each free of edge quotes and spaces |
| OutputParser.KeepItems | llm_output_parser.py:37 | at most one item per comma piece, each free of edge quotes and spaces |
| OutputParser.KeepItemsOne | llm_output_parser.py:37 | one comma piece gives its trimmed self, or nothing when it is blank |
| OutputParser.KeepItemsAppend | llm_output_parser.py:37 | the items of two runs of pieces are the items of the first followed by those of the second, so pieces are kept or dropped one by one, in order |
| OutputParser.Parse | llm_output_parser.py:5-45 | `parse_disease_list`: the strategies on the cleaned text, characterized by `Strategies`, `ParseByJson` and `ParseByLiteral` (a reader that accepts decides), `ParseFallback` and `CommaItemsEmptyIff` (the comma strategy and the last step), and the round trips `ParseJsonArray`, `ParsePythonList` and `ParseCommaList` |
| OutputParser.Strategies | llm_output_parser.py:20-45 | when the JSON reader accepts the text, the result has its length and order with every item stripped; otherwise the same holds for the literal reader |
| OutputParser.ParseByJson | llm_output_parser.py:20-23 | a JSON list decides the result, whatever the literal reader says |
| OutputParser.ParseByLiteral | llm_output_parser.py:26-30 | the literal reader decides only when JSON rejects the text |
| OutputParser.ParseReadsBack | llm_output_parser.py:19-30 | a clean text that a reader accepts, with items that need no trimming, parses to exactly those items |
| OutputParser.ParseJsonArray | llm_output_parser.py:20-23 | a double-quoted list `["a", "b"]` parses back to its names, in order |
| OutputParser.ParsePythonList | llm_output_parser.py:26-30 | a single-quoted list `['a', 'b']` parses back to its names, in order |
| OutputParser.RenderCleans | llm_output_parser.py:10-18 | a bracketed list is untouched by cleaning |
| OutputParser.CommaItemsEmptyIff | llm_output_parser.py:37-38 | the comma strategy finds no item exactly when the text is only commas and whitespace |
| OutputParser.ParseFallback | llm_output_parser.py:33-45 | when both readers reject the text, the comma items of the bracket-stripped text are the answer unless that text is nothing but commas and whitespace; only then does the last step run, giving that bracket-stripped text as one name, or no name when it is empty |
| OutputParser.ParseBlank | llm_output_parser.py:10-45 | a blank answer gives no names |
| OutputParser.CommaItemsOfJoin | llm_output_parser.py:36-37 | names joined with `", "` split back into the same names |
| OutputParser.ParseCommaList | llm_output_parser.py:33-39 | an unbracketed comma list parses back to its names, in order, for any readers that reject it |
| OutputParser.ParseCommaListQuoted | llm_output_parser.py:19-39 | with the quoted-list readers, an unbracketed comma list parses back to its names |
| OutputParser.ParseBareName | llm_output_parser.py:19-39 | every listable name that does not start with `python` parses, with the quoted-list readers, as the list of just that name |
| OutputParser.ParsePythonTagged | llm_output_parser.py:18-39 | for readers that reject the rest, a comma list whose first name is `python` (in any letter case) followed by a name parses to the names with those six letters gone |
| OutputParser.ParsePythonTaggedQuoted | llm_output_parser.py:18-39 | the same with the quoted-list readers, for every such list |
| OutputParser.ParsePythonPrefixedName | llm_output_parser.py:18-39 | `Pythonx, b` parses to `x` and `b` |
| OutputParser.QuotesOnlyPieceGivesEmptyName | llm_output_parser.py:37 | a comma piece of quotes only passes the blank test, yet trims to the empty name |
| ListSyntax.Decode | llm_output_parser.py:21 | an accepted list text starts with `[` and ends with `]` |
| ListSyntax.DecodeRender | llm_output_parser.py:21-28 | a list written with a quote the notation knows reads back as its items |
| ListSyntax.JsonRejectsSingleQuotes | llm_output_parser.py:20-30 | a non-empty single-quoted list is not JSON, so the literal reader gets it |
| Icd10.Match | icd10_lookup.py:15-20 | a response matches iff it has a non-zero total, at least one code, and no empty list as first display entry; the code is the first code; the description is the first display entry, unwrapped once if it is a list, and absent iff the display field is absent or empty |
| Icd10.EmptyGroupIsNoMatch | icd10_lookup.py:19-23 | a first display entry that is an empty list makes the attempt fail like a request error |
| Icd10.FirstMatch | icd10_lookup.py:9-38 | the search stops at a matching term after only non-matching ones, and is exhausted iff no term matches |
| Icd10.Terms | icd10_lookup.py:10-25 | the whole name is tried first; every later term is a non-empty word without whitespace that occurs in the name |
| Icd10.Queried | icd10_lookup.py:9-38 | the terms sent are a prefix of that order |
| Icd10.LookupApi | icd10_lookup.py:7-39 | without a code there is no description either: `(None, None)` |
| Icd10.FullNameFirst | icd10_lookup.py:9-21 | when the whole name matches, only it is sent, and its code and description are the result |
| Icd10.FirstMatchingWord | icd10_lookup.py:24-36 | when the whole name does not match, the first matching word is the last term sent and gives the result |
| Icd10.NothingMatches | icd10_lookup.py:22-39 | when nothing matches, every term is sent and the result is `(None, None)` |
| Icd10.CodePrompt | icd10_lookup.py:47-50 | the name occurs in the prompt between single quotes |
| Icd10.CodePromptInjective | icd10_lookup.py:47-50 | different names give different prompts |
| Icd10.Find | icd10_lookup.py:54 | the position of the first bar, or the length when there is none |
| Icd10.ParseReply | icd10_lookup.py:53-56 | an accepted reply gives a non-empty code other than `N/A` and a non-empty description, both trimmed |
| Icd10.ReplySplit | icd10_lookup.py:53-56 | a reply `a|b` with no bar in `a` reads as the trimmed `a` and the trimmed `b` exactly when both are non-empty and the code is not `N/A`, and as no answer otherwise |
| Icd10.NoBarNoAnswer | icd10_lookup.py:53 | a reply without a bar is no answer |
| Icd10.ReplyCodeHasNoBar | icd10_lookup.py:54 | the split is at the first bar, so the code holds none |
| Icd10.ReplyRoundTrip | icd10_lookup.py:53-56 | a reply of a code, a bar and a description reads back as that code and description, even when the description holds bars |
| Icd10.NotFoundReply | icd10_lookup.py:55 | a reply that begins with `N/A` and a bar is no answer, whatever follows |
| Icd10.FromReply | icd10_lookup.py:51-58 | the model contributes both a non-empty code and a non-empty description, or nothing |
| Icd10.GetCode | icd10_lookup.py:41-59 | the result is `(None, None)` or carries a non-empty code |
| Icd10.ApiFirst | icd10_lookup.py:42-44 | a non-empty code from the search is the answer, and the model is not consulted |
| Icd10.ModelDecides | icd10_lookup.py:45-59 | without a non-empty search code, the answer is the model's reading of its reply to the one prompt, or `(None, None)` without a model |
| Icd10.EveryStepFails | icd10_lookup.py:41-59 | no match anywhere and a model that is absent, raises, or gives no readable reply yield `(None, None)` |
| Icd10.EmptyCodeStopsSearch | icd10_lookup.py:15-21 | a match with an empty code ends the search after the whole name, yet without a model gives `(None, None)` |
| App.ShouldAnalyze | main.py:31 | the run guard `clicked and report.strip()`; `ShouldAnalyzeIff` states when it holds |
| App.ShouldAnalyzeIff | main.py:31 | analysis runs iff the button was pressed and the report holds a non-whitespace character |
| App.AsTuple | main.py:36 | a stored tuple has at least three fields, the second being the prompt |
| App.FromTuple | main.py:87-94 | a tuple the display reads is the tuple of the entry it reads |
| App.TupleRoundTrip | main.py:88-94 | every stored entry is read back as itself, from three fields or four |
| App.NewEntry | main.py:33-41 | the entry holds the prompt, and it is a comparison entry iff comparison mode is on |
| App.Submit | main.py:31-41 | one press appends exactly one entry, holding the prompt and the returned outputs, when analysis runs and every model call of the run returns, and none otherwise; earlier entries are kept |
| App.RaisedCallKeepsHistory | main.py:33-41 | a raising model call, the primary one or in comparison mode the second, leaves the history unchanged |
| App.NewestFirst | main.py:87 | the display order is the history reversed |
| App.LatestShownFirst | main.py:87 | after a run, its entry is shown first, followed by the earlier display |
| App.OrNA | main.py:53 | a cell is never empty: the value, or `N/A` |
| App.RowsFrom | main.py:67-69 | one row per name, numbered consecutively, with the resolver's code and description or `N/A` |
| App.Rows | main.py:51-53 | rows are numbered from 1 in list order, duplicates included |
| App.RowFields | main.py:53 | a missing or empty code or description shows `N/A`, a present one shows itself |
| App.Marker | main.py:56 | the marker `**[n] name**`: `MarkerHoldsName` shows it contains the name, and `DecimalRoundTrip` that the number reads back as the row number |
| App.Highlight | main.py:54-56 | the highlight loop: `HighlightSnoc` (each row acts on the text the earlier rows left), `HighlightOne`, `HighlightWrapsEvery`, `HighlightSkipsAbsent` and `HighlightEmptyName` characterize each step |
| App.HighlightOne | main.py:72-74 | one row replaces its name with its marker |
| App.HighlightSnoc | main.py:72-74 | each row acts on the text the earlier rows produced |
| App.HighlightWrapsEvery | main.py:55-56 | the text so far is its pieces joined by the name, no piece holds the name, and the step joins the same pieces with the marker, and each cut is the leftmost one (as in `SplitLeftmost`): every leftmost non-overlapping occurrence is wrapped |
| App.HighlightSkipsAbsent | main.py:74 | a name that does not occur in the text so far changes nothing |
| App.HighlightEmptyName | main.py:74 | with an empty name, the k-th character of the text follows a copy of the marker at position k·(marker length + 1), a last copy ends the text, and the length grows by one marker per character plus one |
| App.MarkerHoldsName | main.py:56 | the marker contains the name it wraps |
| App.LaterNameInsideEarlierMarker | main.py:54-56 | a later name that is part of an earlier, occurring name is still found after the earlier step, inside its marker |
| App.ShowOutput | main.py:66-75 | the table has one row per parsed name, numbered from 1, in parse order |
| App.NoNamesNoChange | main.py:66-75 | an output with no names gives an empty table and the report unchanged |
| PyStr.Strip | llm_output_parser.py:16 | `str.strip(chars)`: the result has no end character in the set; `StripUnique` and `StripEmptyIff` characterize it completely |
| PyStr.StripUnique | llm_output_parser.py:16 | stripping a character set from a text removes exactly its edge characters from that set |
| PyStr.StripEmptyIff | main.py:31 | a text strips to nothing iff all its characters are in the set |
| PyStr.Split | llm_output_parser.py:37 | `str.split(sep)`: at least one piece; `SplitJoinRoundTrip`, `SplitPiecesFree` and `SplitLeftmost` together pin the pieces down (joined they give the text, none holds the separator, each cut is the leftmost one) |
| PyStr.SplitJoinRoundTrip | llm_output_parser.py:37 | splitting on a separator and joining with it gives the text back |
| PyStr.SplitPiecesFree | llm_output_parser.py:37 | no piece of a split holds the separator, so no occurrence is left uncut |
| PyStr.SplitLeftmost | llm_output_parser.py:37 | each cut is at the leftmost occurrence: no occurrence of the separator starts inside a piece that a cut follows, so for a separator that overlaps itself (`"aaa"` cut at `"aa"`) the pieces are `""`, `"a"` and not `"a"`, `""` |
| PyStr.Replace | main.py:56 | `str.replace`: `ReplaceIsJoinOfSplit` characterizes a non-empty pattern, `ReplaceEmptyLayout` and `ReplaceEmptyLength` the empty one |
| PyStr.ReplaceIsJoinOfSplit | main.py:74 | replacing a non-empty pattern equals splitting on it and joining with the replacement |
| PyStr.ReplaceSelf | main.py:74 | replacing a pattern by itself changes nothing |
| PyStr.ReplaceAbsent | main.py:74 | replacing a pattern that does not occur changes nothing |
| PyStr.ReplaceShowsRepl | main.py:74 | after replacing an occurring pattern, the replacement occurs |
| PyStr.ReplaceEmptyLength | main.py:74 | replacing the empty pattern inserts the replacement once per character plus once |
| PyStr.ReplaceEmptyLayout | main.py:74 | replacing the empty pattern puts a copy of the replacement in front of every character, in place, and one at the end |
| PyStr.Words | icd10_lookup.py:25 | `str.split()`: `WordsAreWords`, `WordsOccur` and `WordsOfJoin` (with `RunsSkipSeps` and `RunsCons`) characterize the words |
| PyStr.WordsAreWords | icd10_lookup.py:25 | every word of `split()` is non-empty and holds no whitespace |
| PyStr.WordsOccur | icd10_lookup.py:25 | every word of `split()` occurs in the text |
| PyStr.WordsOfJoin | icd10_lookup.py:25 | words joined with single spaces split back into the same words |
| PyStr.DecimalRoundTrip | main.py:56 | the number in a marker reads back as the row number |

## Left out

- `llm_client.py`, HTTP requests and `config.yaml`: the language model and the search service are function parameters. Every request failure (network, timeout, HTTP status, a body that is not JSON) is one `Fail` outcome.
- The prompt template and the model calls in `main.py` (lines 23-29, 34-35, 40): what they return, or that they raised, is a parameter of `Submit`, and a returned output is a parameter of `ShowOutput`. The error page Streamlit shows after an uncaught exception is not modelled.
- Logging with `print`, and Streamlit and pandas rendering (columns, expanders, the data frame and its index).
- The full grammars of `json.loads` and `ast.literal_eval`: the parser takes them as parameters, and `ListSyntax` models only lists of quoted strings without escapes.
- `str(d)` for non-string list elements: a reader's items are already strings.
- The `diseases or []` at `main.py:51`: the parser always returns a list, so the `or` never changes it.
- The display field of a response is modelled as absent or as a list of strings and string lists. Other JSON shapes there are not modelled.
- The search response's third field (index 2) is never read, so `Outcome` has no field for it.
- Medical correctness of codes and descriptions.
- Icd10.FirstMatch: the search service is a function of the term, so it answers the same term the same way every time. For a one-word name the code sends that word twice (as the whole name and as its only word); a real service may time out on the first request and answer the second, which the model cannot show.

=== FILE: app.dfy ===
/**
 The report page (main.py), reduced to its logic: the run guard, the history of
 prompts and outputs, the result rows of one model's output, and the highlighted
 report in which every leftmost non-overlapping occurrence of every found name is
 wrapped in a numbered bold marker. The language model's raw outputs are
 parameters. The ICD-10 resolver is a parameter too: the page passes the model
 client without a provider, so its fallback always runs with the configured
 default provider, not the one chosen on the page.
 */
module App {
  import opened Wrappers
  import opened PyStr
  import OutputParser
  import Icd10

  // ---- Run guard ----

  /** `st.button("Analyze Report") and report.strip()`. */
  predicate ShouldAnalyze(clicked: bool, report: string) {
    clicked && Strip(report, Whitespace) != []
  }

  /** Analysis runs exactly when the button was pressed and the report holds a
      character that is not whitespace. */
  lemma ShouldAnalyzeIff(clicked: bool, report: string)
    ensures ShouldAnalyze(clicked, report) <==>
      clicked && exists k :: 0 <= k < |report| && !IsSpace(report[k])
  {
    StripEmptyIff(report, Whitespace);
    if !AllIn(report, Whitespace) {
      var k :| 0 <= k < |report| && report[k] !in Whitespace;
      assert !IsSpace(report[k]);
    }
  }

  // ---- History ----

  /** One history entry: the tuple `("Single", prompt, output)` or
      `("Compare", prompt, primary, comparison)`. */
  datatype Entry =
    | Single(prompt: string, output: string)
    | Compare(prompt: string, primary: string, comparison: string)

  /** The entry as the tuple the page stores. */
  function AsTuple(e: Entry): (t: seq<string>)
    ensures |t| >= 3 && t[1] == e.prompt
  {
    match e
    case Single(p, o) => ["Single", p, o]
    case Compare(p, o1, o2) => ["Compare", p, o1, o2]
  }

  /** How the history display reads a stored tuple: by its tag, unpacking three or
      four fields. */
  function FromTuple(t: seq<string>): (r: Option<Entry>)
    ensures r.Some? ==> AsTuple(r.value) == t
  {
    if |t| == 3 && t[0] == "Single" then Some(Single(t[1], t[2]))
    else if |t| == 4 && t[0] == "Compare" then Some(Compare(t[1], t[2], t[3]))
    else None
  }

  /** Every stored tuple is read back as the entry it was made from. */
  lemma TupleRoundTrip(e: Entry)
    ensures FromTuple(AsTuple(e)) == Some(e)
    ensures |AsTuple(e)| == (if e.Single? then 3 else 4)
  {
  }

  /** The entry one run appends: the prompt with one output, or with both outputs
      in comparison mode. */
  function NewEntry(compare: bool, prompt: string, first: string, second: string): (e: Entry)
    ensures e.prompt == prompt && (e.Compare? <==> compare)
  {
    if compare then Compare(prompt, first, second) else Single(prompt, first)
  }

  /** Every model call of the run returned: the primary one, and in comparison mode
      the second one too. A call that raises ends the run before anything is
      appended. */
  predicate Answered(compare: bool, first: Icd10.LlmReply, second: Icd10.LlmReply) {
    first.Said? && (!compare || second.Said?)
  }

  /** The history after one press of the button, given what the model calls
      returned (in single mode `second` is not called and plays no part). */
  function Submit(history: seq<Entry>, clicked: bool, report: string, compare: bool,
                  prompt: string, first: Icd10.LlmReply, second: Icd10.LlmReply): (h: seq<Entry>)
    ensures |h| == |history| + (if ShouldAnalyze(clicked, report) && Answered(compare, first, second) then 1 else 0)
    ensures h[..|history|] == history
    ensures ShouldAnalyze(clicked, report) && Answered(compare, first, second) ==>
      h[|history|] == NewEntry(compare, prompt, first.text, if compare then second.text else [])
  {
    if ShouldAnalyze(clicked, report) && Answered(compare, first, second) then
      history + [NewEntry(compare, prompt, first.text, if compare then second.text else [])]
    else history
  }

  /** A model call that raises leaves the history as it was, even when the other
      call of a comparison run returned. */
  lemma RaisedCallKeepsHistory(history: seq<Entry>, clicked: bool, report: string, compare: bool,
                               prompt: string, first: Icd10.LlmReply, second: Icd10.LlmReply)
    ensures first.Raised? || (compare && second.Raised?) ==>
      Submit(history, clicked, report, compare, prompt, first, second) == history
  {
  }

  /** `history[::-1]`: the display order, newest first. */
  function NewestFirst(history: seq<Entry>): (r: seq<Entry>)
    ensures |r| == |history|
    ensures forall i :: 0 <= i < |r| ==> r[i] == history[|history| - 1 - i]
    decreases |history|
  {
    if history == [] then []
    else [history[|history| - 1]] + NewestFirst(history[..|history| - 1])
  }

  /** The entry of the latest run is shown first. */
  lemma LatestShownFirst(history: seq<Entry>, clicked: bool, report: string, compare: bool,
                         prompt: string, first: Icd10.LlmReply, second: Icd10.LlmReply)
    requires ShouldAnalyze(clicked, report) && Answered(compare, first, second)
    ensures NewestFirst(Submit(history, clicked, report, compare, prompt, first, second))[0] ==
      NewEntry(compare, prompt, first.text, if compare then second.text else [])
    ensures NewestFirst(Submit(history, clicked, report, compare, prompt, first, second))[1..] ==
      NewestFirst(history)
  {
    var h := Submit(history, clicked, report, compare, prompt, first, second);
    assert h == history + [NewEntry(compare, prompt, first.text, if compare then second.text else [])];
    assert NewestFirst(h)[1..] == NewestFirst(history);
  }

  // ---- Result rows ----

  /** One row of the results table: `(idx, disease, code or "N/A", desc or "N/A")`. */
  datatype Row = Row(index: nat, name: string, code: string, description: string)

  /** `value or "N/A"`. */
  function OrNA(s: Option<string>): (r: string)
    ensures r != []
    ensures r == "N/A" || (s.Some? && r == s.value)
  {
    if Icd10.Truthy(s) then s.value else "N/A"
  }

  /** The code lookup the page performs for one name: `get_icd10_code` with the
      model client, on its configured default provider, as fallback. */
  type Resolver = string -> Icd10.CodeResult

  /** Rows numbered from `start`. */
  function RowsFrom(resolve: Resolver, names: seq<string>, start: nat): (r: seq<Row>)
    ensures |r| == |names|
    ensures forall i :: 0 <= i < |r| ==>
      r[i].index == start + i && r[i].name == names[i] &&
      r[i].code == OrNA(resolve(names[i]).code) &&
      r[i].description == OrNA(resolve(names[i]).description)
    decreases |names|
  {
    if names == [] then []
    else
      var c := resolve(names[0]);
      [Row(start, names[0], OrNA(c.code), OrNA(c.description))] + RowsFrom(resolve, names[1..], start + 1)
  }

  /** `enumerate(diseases, 1)`: one row per name, in order, numbered from 1;
      duplicate names give duplicate rows. */
  function Rows(resolve: Resolver, names: seq<string>): (r: seq<Row>)
    ensures |r| == |names|
    ensures forall i :: 0 <= i < |r| ==> r[i].index == i + 1 && r[i].name == names[i]
  {
    RowsFrom(resolve, names, 1)
  }

  /** A name that is missing no field shows its code and description; missing or
      empty fields show `N/A`, never an empty cell. */
  lemma RowFields(resolve: Resolver, names: seq<string>, i: nat)
    requires i < |names|
    ensures var row := Rows(resolve, names)[i];
      var c := resolve(names[i]);
      row.code != [] && row.description != [] &&
      (Icd10.Truthy(c.code) ==> row.code == c.code.value) &&
      (!Icd10.Truthy(c.code) ==> row.code == "N/A") &&
      (Icd10.Truthy(c.description) ==> row.description == c.description.value) &&
      (!Icd10.Truthy(c.description) ==> row.description == "N/A")
  {
  }

  // ---- Highlighting ----

  /** `f"**[{idx}] {disease}**"`. */
  function Marker(row: Row): string {
    "**[" + Decimal(row.index) + "] " + row.name + "**"
  }

  /** The highlight loop: starting from the report, each row in turn replaces every
      leftmost non-overlapping occurrence of its name, in the text as the earlier
      rows left it. */
  function Highlight(text: string, rows: seq<Row>): string
    decreases |rows|
  {
    if rows == [] then text
    else Highlight(Replace(text, rows[0].name, Marker(rows[0])), rows[1..])
  }

  /** The last row acts on the text the earlier rows produced. */
  lemma {:induction false} HighlightSnoc(text: string, rows: seq<Row>, row: Row)
    ensures Highlight(text, rows + [row]) == Replace(Highlight(text, rows), row.name, Marker(row))
    decreases |rows|
  {
    if rows == [] {
      assert [] + [row] == [row];
    } else {
      assert (rows + [row])[1..] == rows[1..] + [row];
      HighlightSnoc(Replace(text, rows[0].name, Marker(rows[0])), rows[1..], row);
    }
  }

  /** Each step wraps every leftmost non-overlapping occurrence of its name, not just
      the first (`"aaa"` with name `"aa"` has one wrapped occurrence): the text so
      far is its pieces glued with the name, no piece holds the name, and the step
      glues the same pieces with the marker instead. Each cut is the leftmost
      one: no occurrence of the name starts inside a piece that a cut follows. */
  lemma HighlightWrapsEvery(text: string, rows: seq<Row>, row: Row)
    requires row.name != []
    ensures Join(Split(Highlight(text, rows), row.name), row.name) == Highlight(text, rows)
    ensures forall i :: 0 <= i < |Split(Highlight(text, rows), row.name)| ==>
      !Occurs(Split(Highlight(text, rows), row.name)[i], row.name)
    ensures forall i :: 0 <= i < |Split(Highlight(text, rows), row.name)| - 1 ==>
      !Occurs(Split(Highlight(text, rows), row.name)[i] + row.name[..|row.name| - 1], row.name)
    ensures Highlight(text, rows + [row]) ==
      Join(Split(Highlight(text, rows), row.name), Marker(row))
  {
    HighlightSnoc(text, rows, row);
    SplitJoinRoundTrip(Highlight(text, rows), row.name);
    SplitPiecesFree(Highlight(text, rows), row.name);
    SplitLeftmost(Highlight(text, rows), row.name);
    ReplaceIsJoinOfSplit(Highlight(text, rows), row.name, Marker(row));
  }

  /** A step whose name does not occur in the text so far changes nothing. */
  lemma HighlightSkipsAbsent(text: string, rows: seq<Row>, row: Row)
    requires row.name != [] && !Occurs(Highlight(text, rows), row.name)
    ensures Highlight(text, rows + [row]) == Highlight(text, rows)
  {
    HighlightSnoc(text, rows, row);
    ReplaceAbsent(Highlight(text, rows), row.name, Marker(row));
  }

  /** An empty name (a list item that was only quotes) puts its marker before every
      character of the text and at its end. */
  lemma HighlightEmptyName(text: string, rows: seq<Row>, row: Row)
    requires row.name == []
    ensures |Highlight(text, rows + [row])| ==
      |Highlight(text, rows)| + (|Highlight(text, rows)| + 1) * |Marker(row)|
    ensures forall k :: 0 <= k < |Highlight(text, rows)| ==>
      MarkedAt(Highlight(text, rows + [row]), Marker(row), k, Highlight(text, rows)[k])
    ensures EndsWith(Highlight(text, rows + [row]), Marker(row))
  {
    HighlightSnoc(text, rows, row);
    ReplaceEmptyLength(Highlight(text, rows), Marker(row));
    ReplaceEmptyLayout(Highlight(text, rows), Marker(row));
  }

  /** The marker holds the name it wraps. */
  lemma MarkerHoldsName(row: Row)
    ensures Occurs(Marker(row), row.name)
  {
    OccursInMiddle("**[" + Decimal(row.index) + "] ", row.name, "**");
  }

  /** Why the order of the rows matters: when a later name is part of an earlier
      one that occurs in the report, the later name is found again inside the
      earlier row's marker, and its own marker lands inside that markup. */
  lemma LaterNameInsideEarlierMarker(text: string, first: Row, later: Row)
    requires first.name != [] && Occurs(text, first.name) && Occurs(first.name, later.name)
    ensures Occurs(Highlight(text, [first]), later.name)
  {
    HighlightOne(text, first);
    ReplaceShowsRepl(text, first.name, Marker(first));
    MarkerHoldsName(first);
    OccursTrans(Replace(text, first.name, Marker(first)), Marker(first), first.name);
    OccursTrans(Replace(text, first.name, Marker(first)), first.name, later.name);
  }

  lemma HighlightOne(text: string, row: Row)
    ensures Highlight(text, [row]) == Replace(text, row.name, Marker(row))
  {
    HighlightSnoc(text, [], row);
    assert [] + [row] == [row];
  }

  // ---- One model's output on the page ----

  /** The table and the highlighted report for one model's output. */
  datatype Panel = Panel(rows: seq<Row>, highlighted: string)

  function ShowOutput(dec: OutputParser.Decoders, resolve: Resolver, report: string, output: string): (p: Panel)
    ensures |p.rows| == |OutputParser.Parse(dec, output)|
    ensures forall i :: 0 <= i < |p.rows| ==>
      p.rows[i].index == i + 1 && p.rows[i].name == OutputParser.Parse(dec, output)[i]
  {
    var rows := Rows(resolve, OutputParser.Parse(dec, output));
    Panel(rows, Highlight(report, rows))
  }

  /** An output with no names leaves the report as it is and the table empty. */
  lemma NoNamesNoChange(dec: OutputParser.Decoders, resolve: Resolver, report: string, output: string)
    ensures OutputParser.Parse(dec, output) == [] ==>
      ShowOutput(dec, resolve, report, output) == Panel([], report)
  {
  }
}

=== FILE: icd10.dfy ===
/**
 The ICD-10 resolver (`lookup_icd10_api`, `get_icd10_code`). A disease name is
 looked up in a code search service, first as a whole and then word by word; the
 first answer that counts as a match gives the code and, when the answer carries
 one, a description. When that yields no usable code and a language model is at
 hand, the model is asked once and its `CODE | Description` reply is read.

 The search service and the model are parameters: `Api` maps a search term to what
 one request produced, `Llm` maps a prompt to what one call produced.
 */
module Icd10 {
  import opened Wrappers
  import opened PyStr

  /** One entry of the response's display field: a string, or a list whose first
      element is the description. */
  datatype DisplayEntry = Text(text: string) | Group(items: seq<string>)

  /** What one search request produced. `Fail` stands for every way the request can
      go wrong before a response body is read: a network error, a timeout, an HTTP
      error status, a body that is no JSON or too short to index. `Reply` is a
      response `[total, codes, extra, display]`; `display` is `None` when the field
      is absent or null. */
  datatype Outcome =
    | Fail
    | Reply(total: int, codes: seq<string>, display: Option<seq<DisplayEntry>>)

  type Api = string -> Outcome

  /** A code found in a response and its description, if the response had one. */
  datatype Hit = Hit(code: string, description: Option<string>)

  /** The response has a display field whose first entry is an empty list; reading
      a description from it raises, which ends that attempt like a failed request. */
  predicate EmptyFirstGroup(o: Outcome) {
    o.Reply? && o.display.Some? && o.display.value != [] &&
    o.display.value[0].Group? && o.display.value[0].items == []
  }

  /** The description a matching response carries. */
  function Description(display: Option<seq<DisplayEntry>>): Option<string>
    requires display.None? || display.value == [] || display.value[0].Text? || display.value[0].items != []
  {
    if display.None? || display.value == [] then None
    else match display.value[0]
      case Text(t) => Some(t)
      case Group(items) => Some(items[0])
  }

  /** Reads one response: a match needs a non-zero total and at least one code; the
      code is the first one; the description is the first display entry, unwrapped
      once when it is a list, or nothing when the display field is absent or empty. */
  function Match(o: Outcome): (r: Option<Hit>)
    ensures r.Some? <==> o.Reply? && o.total != 0 && o.codes != [] && !EmptyFirstGroup(o)
    ensures r.Some? ==> r.value.code == o.codes[0]
    ensures r.Some? ==> (r.value.description.None? <==> o.display.None? || o.display.value == [])
    ensures r.Some? && o.display.Some? && o.display.value != [] ==>
      r.value.description == Some(match o.display.value[0]
        case Text(t) => t
        case Group(items) => items[0])
  {
    if o.Fail? || o.total == 0 || o.codes == [] || EmptyFirstGroup(o) then None
    else Some(Hit(o.codes[0], Description(o.display)))
  }

  /** Where a search over a list of terms stopped: at the first term whose response
      matched, or after all of them. */
  datatype Search = Found(at: nat, hit: Hit) | Exhausted

  /** The terms looked up one after the other until one matches. */
  function FirstMatch(api: Api, terms: seq<string>): (r: Search)
    ensures r.Found? ==>
      r.at < |terms| && Match(api(terms[r.at])) == Some(r.hit) &&
      forall j :: 0 <= j < r.at ==> Match(api(terms[j])).None?
    ensures r.Exhausted? <==> forall j :: 0 <= j < |terms| ==> Match(api(terms[j])).None?
    decreases |terms|
  {
    if terms == [] then Exhausted
    else
      var first := Match(api(terms[0]));
      if first.Some? then Found(0, first.value)
      else
        var rest := FirstMatch(api, terms[1..]);
        if rest.Found? then Found(rest.at + 1, rest.hit) else Exhausted
  }

  /** The search terms in the order they are tried: the whole name, then the words
      of `disease.split()`, left to right. */
  function Terms(disease: string): (r: seq<string>)
    ensures |r| >= 1 && r[0] == disease
    ensures forall i :: 1 <= i < |r| ==> IsWord(r[i]) && Occurs(disease, r[i])
  {
    WordsAreWords(disease);
    WordsOccur(disease);
    [disease] + Words(disease)
  }

  /** The terms actually sent, up to and including the one that matched. */
  function Queried(api: Api, disease: string): (r: seq<string>)
    ensures 1 <= |r| <= |Terms(disease)| && r == Terms(disease)[..|r|]
  {
    var s := FirstMatch(api, Terms(disease));
    if s.Found? then Terms(disease)[..s.at + 1] else Terms(disease)
  }

  /** A pair `(code, description)`; `None` is Python's `None`. */
  datatype CodeResult = CodeResult(code: Option<string>, description: Option<string>)

  const NoCode := CodeResult(None, None)

  /** `lookup_icd10_api(disease)`. */
  function LookupApi(api: Api, disease: string): (r: CodeResult)
    ensures r.code.None? ==> r == NoCode
  {
    var s := FirstMatch(api, Terms(disease));
    if s.Found? then CodeResult(Some(s.hit.code), s.hit.description) else NoCode
  }

  /** If the whole name matches, that answer is the result and no word is looked up. */
  lemma FullNameFirst(api: Api, disease: string)
    requires Match(api(disease)).Some?
    ensures Queried(api, disease) == [disease]
    ensures LookupApi(api, disease) ==
      CodeResult(Some(Match(api(disease)).value.code), Match(api(disease)).value.description)
  {
    var s := FirstMatch(api, Terms(disease));
    assert Terms(disease)[0] == disease;
    assert s.Found? && s.at == 0;
  }

  /** The search stops at the first matching term. */
  lemma {:induction false} FirstMatchAt(api: Api, terms: seq<string>, i: nat)
    requires i < |terms| && Match(api(terms[i])).Some?
    requires forall j :: 0 <= j < i ==> Match(api(terms[j])).None?
    ensures FirstMatch(api, terms) == Found(i, Match(api(terms[i])).value)
    decreases i
  {
    if i > 0 {
      assert Match(api(terms[0])).None?;
      forall j | 0 <= j < i - 1 ensures Match(api(terms[1..][j])).None? {
        assert terms[1..][j] == terms[j + 1];
      }
      FirstMatchAt(api, terms[1..], i - 1);
    }
  }

  /** If the whole name does not match, the first word that matches decides. */
  lemma FirstMatchingWord(api: Api, disease: string, i: nat)
    requires Match(api(disease)).None?
    requires i < |Words(disease)| && Match(api(Words(disease)[i])).Some?
    requires forall j :: 0 <= j < i ==> Match(api(Words(disease)[j])).None?
    ensures Queried(api, disease) == [disease] + Words(disease)[..i + 1]
    ensures var h := Match(api(Words(disease)[i])).value;
      LookupApi(api, disease) == CodeResult(Some(h.code), h.description)
  {
    FirstMatchBehind(api, disease, Words(disease), i);
    PrefixBehind(disease, Words(disease), i);
  }

  /** A search over a first term that does not match, then `ws`, stops at the first
      matching element of `ws`, one position further on. */
  lemma FirstMatchBehind(api: Api, head: string, ws: seq<string>, i: nat)
    requires Match(api(head)).None?
    requires i < |ws| && Match(api(ws[i])).Some?
    requires forall j :: 0 <= j < i ==> Match(api(ws[j])).None?
    ensures FirstMatch(api, [head] + ws) == Found(i + 1, Match(api(ws[i])).value)
  {
    FirstMatchAt(api, ws, i);
    assert ([head] + ws)[1..] == ws;
  }

  lemma PrefixBehind(head: string, ws: seq<string>, i: nat)
    requires i < |ws|
    ensures ([head] + ws)[..i + 2] == [head] + ws[..i + 1]
  {
  }

  /** No matching answer for the name or any of its words: no code. */
  lemma NothingMatches(api: Api, disease: string)
    requires Match(api(disease)).None?
    requires forall j :: 0 <= j < |Words(disease)| ==> Match(api(Words(disease)[j])).None?
    ensures LookupApi(api, disease) == NoCode
    ensures Queried(api, disease) == Terms(disease)
  {
    var ts := Terms(disease);
    forall j | 0 <= j < |ts| ensures Match(api(ts[j])).None? {
      if j > 0 { assert ts[j] == Words(disease)[j - 1]; }
    }
  }

  // ---- The language-model fallback ----

  /** What one call to the model produced: an exception, or a reply text. */
  datatype LlmReply = Raised | Said(text: string)

  type Llm = string -> LlmReply

  const PromptHead := "What is the ICD-10 code and description for the disease: "
  const PromptTail := "? Respond in the format: CODE | Description. If not found, reply: N/A | N/A."

  /** The question put to the model; the name appears between single quotes. */
  function CodePrompt(disease: string): (r: string)
    ensures Occurs(r, "'" + disease + "'")
  {
    var r := PromptHead + "'" + disease + "'" + PromptTail;
    assert r[|PromptHead|..][..|disease| + 2] == "'" + disease + "'";
    r
  }

  /** The index of the first `c` in `s`, or `|s|` when there is none. */
  function Find(s: string, c: char): (i: nat)
    ensures i <= |s| && (i < |s| ==> s[i] == c)
    ensures forall k :: 0 <= k < i ==> s[k] != c
    decreases |s|
  {
    if s == [] then 0
    else if s[0] == c then 0
    else 1 + Find(s[1..], c)
  }

  /** Reads a `CODE | Description` reply: split at the first `|`, both sides trimmed;
      accepted when both sides are non-empty and the code is not `N/A`. */
  function ParseReply(t: string): (r: Option<(string, string)>)
    ensures r.Some? ==> r.value.0 != [] && r.value.1 != [] && r.value.0 != "N/A"
    ensures r.Some? ==> Trimmed(r.value.0, Whitespace) && Trimmed(r.value.1, Whitespace)
  {
    var i := Find(t, '|');
    if i == |t| then None
    else
      var code := Strip(t[..i], Whitespace);
      var desc := Strip(t[i + 1..], Whitespace);
      if code != [] && desc != [] && code != "N/A" then Some((code, desc)) else None
  }

  /** A reply without a bar is no answer. */
  lemma NoBarNoAnswer(t: string)
    requires forall k :: 0 <= k < |t| ==> t[k] != '|'
    ensures ParseReply(t) == None
  {
    FindAbsent(t, '|');
  }

  lemma {:induction false} FindAbsent(s: string, c: char)
    requires forall k :: 0 <= k < |s| ==> s[k] != c
    ensures Find(s, c) == |s|
    decreases |s|
  {
    if s != [] {
      FindAbsent(s[1..], c);
    }
  }

  lemma {:induction false} FindAfter(a: string, c: char, b: string)
    requires forall k :: 0 <= k < |a| ==> a[k] != c
    ensures Find(a + [c] + b, c) == |a|
    decreases |a|
  {
    if a != [] {
      assert (a + [c] + b)[1..] == a[1..] + [c] + b;
      FindAfter(a[1..], c, b);
    }
  }

  /** The code read from a reply never holds a bar: the split is at the first one. */
  lemma ReplyCodeHasNoBar(t: string)
    requires ParseReply(t).Some?
    ensures forall k :: 0 <= k < |ParseReply(t).value.0| ==> ParseReply(t).value.0[k] != '|'
  {
    var i := Find(t, '|');
    var p, q := StripParts(t[..i], Whitespace);
    var code := Strip(t[..i], Whitespace);
    forall k | 0 <= k < |code| ensures code[k] != '|' {
      assert code[k] == t[..i][|p| + k];
    }
  }

  /** Round trip: a well-formed reply reads back as its code and description; the
      description may itself contain bars. */
  lemma ReplyRoundTrip(code: string, desc: string)
    requires code != [] && desc != [] && code != "N/A"
    requires Trimmed(code, Whitespace) && Trimmed(desc, Whitespace)
    requires forall k :: 0 <= k < |code| ==> code[k] != '|'
    ensures ParseReply(code + " | " + desc) == Some((code, desc))
  {
    var t := code + " | " + desc;
    assert t == (code + " ") + ['|'] + (" " + desc);
    assert forall k :: 0 <= k < |code + " "| ==> (code + " ")[k] != '|';
    FindAfter(code + " ", '|', " " + desc);
    assert t[..|code| + 1] == code + " ";
    assert t[|code| + 2..] == " " + desc;
    assert ' ' in Whitespace;
    StripUnique([], code, " ", Whitespace);
    assert [] + code + " " == code + " ";
    StripUnique(" ", desc, [], Whitespace);
    assert " " + desc + [] == " " + desc;
  }

  /** The model's "not found" answer is no answer, whatever follows the bar. */
  lemma NotFoundReply(rest: string)
    ensures ParseReply("N/A |" + rest) == None
  {
    var t := "N/A |" + rest;
    assert t == "N/A " + ['|'] + rest;
    FindAfter("N/A ", '|', rest);
    assert t[..4] == "N/A" + " ";
    assert ' ' in Whitespace && 'A' !in Whitespace && 'N' !in Whitespace;
    StripUnique([], "N/A", " ", Whitespace);
    assert [] + "N/A" + " " == "N/A" + " ";
  }

  /** The reply reading in full: everything before the first bar is the code and
      everything after it the description, each trimmed, and the pair is accepted
      exactly when both are non-empty and the code is not `N/A`. */
  lemma ReplySplit(a: string, b: string)
    requires forall k :: 0 <= k < |a| ==> a[k] != '|'
    ensures ParseReply(a + "|" + b) ==
      (if Strip(a, Whitespace) != [] && Strip(b, Whitespace) != [] && Strip(a, Whitespace) != "N/A"
       then Some((Strip(a, Whitespace), Strip(b, Whitespace))) else None)
  {
    FindAfter(a, '|', b);
    assert (a + "|" + b)[..|a|] == a;
    assert (a + "|" + b)[|a| + 1..] == b;
  }

  /** Different names give different prompts: the model is always asked about the
      name that was passed in. */
  lemma CodePromptInjective(a: string, b: string)
    ensures CodePrompt(a) == CodePrompt(b) ==> a == b
  {
    if CodePrompt(a) == CodePrompt(b) {
      assert a == CodePrompt(a)[|PromptHead| + 1..|PromptHead| + 1 + |a|];
    }
  }

  /** What the fallback contributes for one reply. */
  function FromReply(reply: LlmReply): (r: CodeResult)
    ensures r == NoCode || (r.code.Some? && r.description.Some? && r.code.value != [] && r.description.value != [])
  {
    if reply.Raised? then NoCode
    else
      var parsed := ParseReply(reply.text);
      if parsed.Some? then CodeResult(Some(parsed.value.0), Some(parsed.value.1)) else NoCode
  }

  /** Python truthiness of an optional string: present and non-empty. */
  predicate Truthy(s: Option<string>) {
    s.Some? && s.value != []
  }

  /** `get_icd10_code(disease, fallback_llm)`; `llm` is `None` when no fallback is given. */
  function GetCode(api: Api, llm: Option<Llm>, disease: string): (r: CodeResult)
    ensures r == NoCode || Truthy(r.code)
  {
    var found := LookupApi(api, disease);
    if Truthy(found.code) then found
    else if llm.None? then NoCode
    else FromReply(llm.value(CodePrompt(disease)))
  }

  /** A usable code from the search service is the answer, whatever model is at hand:
      the model is not consulted. */
  lemma ApiFirst(api: Api, llm: Option<Llm>, disease: string)
    requires Truthy(LookupApi(api, disease).code)
    ensures GetCode(api, llm, disease) == LookupApi(api, disease)
    ensures GetCode(api, llm, disease) == GetCode(api, None, disease)
  {
  }

  /** Without a usable code from the search service, the answer is the model's, read
      from its reply to the one prompt, or no code when no model is given. */
  lemma ModelDecides(api: Api, llm: Option<Llm>, disease: string)
    requires !Truthy(LookupApi(api, disease).code)
    ensures llm.None? ==> GetCode(api, llm, disease) == NoCode
    ensures llm.Some? ==> GetCode(api, llm, disease) == FromReply(llm.value(CodePrompt(disease)))
  {
  }

  /** When every lookup fails and the model is absent, raises, or gives no readable
      answer, the result is `(None, None)`. */
  lemma EveryStepFails(api: Api, llm: Option<Llm>, disease: string)
    requires forall j :: 0 <= j < |Terms(disease)| ==> Match(api(Terms(disease)[j])).None?
    requires llm.Some? ==>
      var reply := llm.value(CodePrompt(disease));
      reply.Raised? || ParseReply(reply.text).None?
    ensures GetCode(api, llm, disease) == NoCode
  {
  }

  /** A match whose code is the empty string stops the search, yet is no usable code:
      the words are never tried and, without a model, the result is `(None, None)`. */
  lemma EmptyCodeStopsSearch(api: Api, disease: string)
    requires Match(api(disease)).Some? && Match(api(disease)).value.code == []
    ensures Queried(api, disease) == [disease]
    ensures GetCode(api, None, disease) == NoCode
  {
    FullNameFirst(api, disease);
  }

  /** A response whose first display entry is an empty list is no match, even with a
      code: reading it raises, and the search moves on. */
  lemma EmptyGroupIsNoMatch(total: int, codes: seq<string>, rest: seq<DisplayEntry>)
    ensures Match(Reply(total, codes, Some([Group([])] + rest))).None?
  {
  }
}

=== FILE: list_syntax.dfy ===
/**
 A small grammar of bracketed, comma-separated, quoted string lists. It stands in
 for the two library parsers the output parser tries first, `json.loads` and
 `ast.literal_eval`, restricted to the one shape the program cares about: a list
 of strings. Every list this grammar accepts is read by the library parser as the
 same list of strings; what it rejects (numbers, escapes, nesting, a trailing
 comma, ...) the library may still accept, which is why the output parser takes
 its decoders as parameters rather than fixing this grammar.
 */
module ListSyntax {
  import opened Wrappers
  import opened PyStr

  /** A character allowed inside a quoted item: printable, no quote, no backslash. */
  predicate PlainChar(c: char) {
    c >= ' ' && c != '"' && c != '\'' && c != '\\'
  }

  predicate PlainItem(s: string) {
    forall k :: 0 <= k < |s| ==> PlainChar(s[k])
  }

  /** The lexical conventions of one list notation: which quotes open an item and
      which characters may separate tokens. */
  datatype Notation = Notation(quotes: set<char>, blanks: set<char>)

  /** JSON text (RFC 8259): strings in double quotes; insignificant whitespace is
      space, tab, line feed and carriage return. */
  const Json := Notation({'"'}, {' ', '\t', '\n', '\r'})

  /** A Python list display: strings in single or double quotes; between tokens
      inside brackets, spaces, tabs, form feeds and line breaks. */
  const PythonLiteral := Notation({'"', '\''}, {' ', '\t', '\n', '\r', '\U{C}'})

  /** The length of the longest prefix of plain characters. */
  function PlainRun(s: string): (n: nat)
    ensures n <= |s| && PlainItem(s[..n])
    ensures n == |s| || !PlainChar(s[n])
    decreases |s|
  {
    if s == [] || !PlainChar(s[0]) then 0
    else
      var m := PlainRun(s[1..]);
      assert s[1..][..m] == s[1..m + 1];
      1 + m
  }

  /** Reads one quoted item at the start of `b`: the item and the text after its
      closing quote, which must be the quote that opened it. */
  function QuotedItem(nt: Notation, b: string): (r: Option<(string, string)>)
    ensures r.Some? ==> PlainItem(r.value.0) && |r.value.1| < |b|
  {
    if b == [] || b[0] !in nt.quotes then None
    else
      var n := PlainRun(b[1..]);
      if 1 + n >= |b| || b[1 + n] != b[0] then None
      else
        assert b[1..1 + n] == b[1..][..n];
        Some((b[1..1 + n], b[n + 2..]))
  }

  /** Reads the items of a list body (the text between the brackets, trimmed):
      a quoted item, then either the end or a comma and more items. */
  function Items(nt: Notation, b: string): (r: Option<seq<string>>)
    ensures r.Some? ==> |r.value| >= 1
    decreases |b|
  {
    var first := QuotedItem(nt, b);
    if first.None? then None
    else
      var rest := LStrip(first.value.1, nt.blanks);
      if rest == [] then Some([first.value.0])
      else if rest[0] != ',' then None
      else
        var next := LStrip(rest[1..], nt.blanks);
        assert |next| < |b|;
        var more := Items(nt, next);
        if more.None? then None else Some([first.value.0] + more.value)
  }

  /** Reads a whole list: `[`, optional blanks, items, optional blanks, `]`. */
  function Decode(nt: Notation, s: string): (r: Option<seq<string>>)
    ensures r.Some? ==> |s| >= 2 && s[0] == '[' && s[|s| - 1] == ']'
  {
    if |s| >= 2 && s[0] == '[' && s[|s| - 1] == ']' then
      var body := Strip(s[1..|s| - 1], nt.blanks);
      if body == [] then Some([]) else Items(nt, body)
    else None
  }

  /** One item written between quotes `q`. */
  function Quote(q: char, item: string): string {
    [q] + item + [q]
  }

  /** The items, each quoted with `q`, separated by `, `. */
  function QuotedJoin(q: char, items: seq<string>): string
    decreases |items|
  {
    if |items| == 0 then []
    else if |items| == 1 then Quote(q, items[0])
    else Quote(q, items[0]) + ", " + QuotedJoin(q, items[1..])
  }

  /** A list written the way a model asked for "a Python list" usually writes it:
      `["a", "b"]` with `q` the double quote, `['a', 'b']` with the single one. */
  function Render(q: char, items: seq<string>): string {
    "[" + QuotedJoin(q, items) + "]"
  }

  lemma QuotedJoinEnds(q: char, items: seq<string>)
    requires |items| >= 1
    ensures var t := QuotedJoin(q, items); |t| >= 2 && t[0] == q && t[|t| - 1] == q
    decreases |items|
  {
    if |items| > 1 {
      QuotedJoinEnds(q, items[1..]);
    }
  }

  lemma {:induction false} PlainRunOf(item: string, tail: string)
    requires PlainItem(item) && tail != [] && !PlainChar(tail[0])
    ensures PlainRun(item + tail) == |item|
    decreases |item|
  {
    if item == [] {
      assert item + tail == tail;
    } else {
      assert (item + tail)[1..] == item[1..] + tail;
      PlainRunOf(item[1..], tail);
      PlainRunStep(item + tail);
    }
  }

  lemma PlainRunStep(s: string)
    requires s != [] && PlainChar(s[0])
    ensures PlainRun(s) == 1 + PlainRun(s[1..])
  {
  }

  /** The quoted-item reader reads back one quoted item and leaves what follows. */
  lemma QuotedItemOf(nt: Notation, q: char, item: string, tail: string)
    requires q in nt.quotes && !PlainChar(q) && PlainItem(item)
    ensures QuotedItem(nt, Quote(q, item) + tail) == Some((item, tail))
  {
    var b := Quote(q, item) + tail;
    assert b[1..] == item + ([q] + tail);
    PlainRunOf(item, [q] + tail);
    assert b[1 + |item|] == q;
    assert b[1..1 + |item|] == item;
    assert b[|item| + 2..] == tail;
  }

  /** The item reader reads back what `QuotedJoin` wrote. */
  lemma {:induction false} ItemsOfQuotedJoin(nt: Notation, q: char, items: seq<string>)
    requires q in nt.quotes && !PlainChar(q) && q !in nt.blanks
    requires ' ' in nt.blanks && ',' !in nt.blanks
    requires |items| >= 1 && forall i :: 0 <= i < |items| ==> PlainItem(items[i])
    ensures Items(nt, QuotedJoin(q, items)) == Some(items)
    decreases |items|
  {
    if |items| == 1 {
      ItemsOfOne(nt, q, items[0]);
      assert [items[0]] == items;
    } else {
      ItemsOfQuotedJoin(nt, q, items[1..]);
      ItemsOfMore(nt, q, items);
    }
  }

  lemma ItemsOfMore(nt: Notation, q: char, items: seq<string>)
    requires q in nt.quotes && !PlainChar(q) && q !in nt.blanks
    requires ' ' in nt.blanks && ',' !in nt.blanks
    requires |items| >= 2 && PlainItem(items[0])
    requires Items(nt, QuotedJoin(q, items[1..])) == Some(items[1..])
    ensures Items(nt, QuotedJoin(q, items)) == Some(items)
  {
    QuotedJoinEnds(q, items[1..]);
    QuotedJoinCons(q, items);
    ItemsAfterQuote(nt, q, items[0], QuotedJoin(q, items[1..]), items[1..]);
    assert items == [items[0]] + items[1..];
  }

  lemma QuotedJoinCons(q: char, items: seq<string>)
    requires |items| >= 2
    ensures QuotedJoin(q, items) == Quote(q, items[0]) + (", " + QuotedJoin(q, items[1..]))
  {
  }

  /** A quoted item, `", "` and a list of items read as that item and then those items. */
  lemma ItemsAfterQuote(nt: Notation, q: char, item: string, more: string, rest: seq<string>)
    requires q in nt.quotes && !PlainChar(q) && q !in nt.blanks
    requires ' ' in nt.blanks && ',' !in nt.blanks
    requires PlainItem(item) && |more| >= 1 && more[0] == q
    requires Items(nt, more) == Some(rest)
    ensures Items(nt, Quote(q, item) + (", " + more)) == Some([item] + rest)
  {
    QuotedItemOf(nt, q, item, ", " + more);
    ItemsStep(nt, Quote(q, item) + (", " + more), item, more);
  }

  lemma ItemsOfOne(nt: Notation, q: char, item: string)
    requires q in nt.quotes && !PlainChar(q) && PlainItem(item)
    ensures Items(nt, Quote(q, item)) == Some([item])
  {
    QuotedItemOf(nt, q, item, []);
    assert Quote(q, item) + [] == Quote(q, item);
    LStripSkip([], [], nt.blanks);
  }

  lemma ItemsStep(nt: Notation, b: string, item: string, more: string)
    requires QuotedItem(nt, b) == Some((item, ", " + more))
    requires ' ' in nt.blanks && ',' !in nt.blanks
    requires |more| >= 1 && more[0] !in nt.blanks
    ensures Items(nt, b) == (if Items(nt, more).None? then None else Some([item] + Items(nt, more).value))
  {
    var tail := ", " + more;
    LStripSkip([], tail, nt.blanks);
    assert [] + tail == tail;
    assert tail[1..] == [' '] + more;
    LStripSkip([' '], more, nt.blanks);
  }

  /** Round trip: a list rendered with a quote the notation knows decodes to its items. */
  lemma DecodeRender(nt: Notation, q: char, items: seq<string>)
    requires q in nt.quotes && !PlainChar(q) && q !in nt.blanks
    requires ' ' in nt.blanks && ',' !in nt.blanks
    requires forall i :: 0 <= i < |items| ==> PlainItem(items[i])
    ensures Decode(nt, Render(q, items)) == Some(items)
  {
    var s := Render(q, items);
    var body := QuotedJoin(q, items);
    assert s[1..|s| - 1] == body;
    if |items| == 0 {
      LStripSkip([], [], nt.blanks);
    } else {
      QuotedJoinEnds(q, items);
      StripTrimmed(body, nt.blanks);
      ItemsOfQuotedJoin(nt, q, items);
    }
  }

  /** JSON does not know the single quote: a non-empty single-quoted list is not JSON. */
  lemma JsonRejectsSingleQuotes(items: seq<string>)
    requires |items| >= 1
    ensures Decode(Json, Render('\'', items)) == None
  {
    var s := Render('\'', items);
    var body := QuotedJoin('\'', items);
    assert s[1..|s| - 1] == body;
    QuotedJoinEnds('\'', items);
    StripTrimmed(body, Json.blanks);
  }
}

=== FILE: output_parser.dfy ===
/**
 The parser that turns a language model's free-text answer into an ordered list of
 disease names (`parse_disease_list`). It cleans the text up, then tries, in this
 order, a JSON array, a Python list literal, and a comma-separated list of the
 text with `[` and `]` stripped from its ends. Only when that bracket-stripped
 text is nothing but commas and whitespace does the last step run: it gives that
 text as one name, or no name when it is empty. Every input yields a list.
 */
module OutputParser {
  import opened Wrappers
  import opened PyStr
  import ListSyntax

  /** A library list reader (`json.loads`, `ast.literal_eval`) seen from the
      parser: `Some` of the items, each already converted with `str`, when the text
      reads as a list; `None` when it raises or reads as something other than a list. */
  type Decoder = string -> Option<seq<string>>

  datatype Decoders = Decoders(json: Decoder, literal: Decoder)

  /** The quoted-string-list grammar standing in for both library readers. */
  const QuotedLists := Decoders(
    s => ListSyntax.Decode(ListSyntax.Json, s),
    s => ListSyntax.Decode(ListSyntax.PythonLiteral, s))

  const Fence := "```"

  /** `[a-zA-Z]`, the letters of a fence's language tag. */
  const AsciiLetters: set<char> := set c: char | 'a' <= c <= 'z' || 'A' <= c <= 'Z'

  /** Stripped from both ends of the cleaned text: double and single quote, line feed, space. */
  const EdgeQuotes: set<char> := {'"', '\'', '\n', ' '}

  /** Stripped from both ends of every item: double and single quote, space. */
  const ItemEdges: set<char> := {'"', '\'', ' '}

  const Brackets: set<char> := {'[', ']'}

  /** Characters the cleaning cascade may remove from the ends of a text. */
  const TextEdges: set<char> := Whitespace + {'"', '\'', '`'}

  /** Characters a name must not begin or end with to survive a comma list unchanged. */
  const NameEdges: set<char> := TextEdges + Brackets

  /** The characters a comma-separated text may consist of and still yield no item. */
  const CommaOrSpace: set<char> := Whitespace + {','}

  /** `re.sub(r"^```[a-zA-Z]*", "", s)`: an opening fence and its language tag. */
  function DropOpeningFence(s: string): (r: string)
    ensures StartsWith(s, Fence) ==>
      |r| <= |s| - |Fence| && s[|s| - |r|..] == r &&
      AllIn(s[|Fence|..|s| - |r|], AsciiLetters) && (r == [] || r[0] !in AsciiLetters)
    ensures !StartsWith(s, Fence) ==> r == s
  {
    if StartsWith(s, Fence) then
      var t := s[|Fence|..];
      LStripMargin(t, AsciiLetters);
      assert s[|Fence|..|s| - |LStrip(t, AsciiLetters)|] == t[..|t| - |LStrip(t, AsciiLetters)|];
      LStrip(t, AsciiLetters)
    else s
  }

  /** `re.sub(r"```$", "", s)`: without the multi-line flag `$` matches at the very
      end and also just before a final line feed, which survives. */
  function DropClosingFence(s: string): (r: string)
    ensures EndsWith(s, Fence) ==> r + Fence == s
    ensures !EndsWith(s, Fence) && EndsWith(s, Fence + "\n") ==>
      |r| >= 1 && r[|r| - 1] == '\n' && r[..|r| - 1] + Fence + "\n" == s
    ensures !EndsWith(s, Fence) && !EndsWith(s, Fence + "\n") ==> r == s
  {
    if EndsWith(s, Fence) then s[..|s| - 3]
    else if EndsWith(s, Fence + "\n") then
      assert s == s[..|s| - 4] + s[|s| - 4..];
      s[..|s| - 4] + "\n"
    else s
  }

  function AsciiLower(c: char): char {
    if 'A' <= c <= 'Z' then (c as int + 32) as char else c
  }

  /** `s` starts with `python` in any mix of upper and lower case. */
  predicate StartsWithPython(s: string) {
    |s| >= 6 && forall k :: 0 <= k < 6 ==> AsciiLower(s[k]) == "python"[k]
  }

  /** `re.sub(r"^python", "", s, flags=re.IGNORECASE)`: the result is what is left
      of `s` after a cut at its front, and the text shrinks exactly when it opened
      with the tag, by the tag's six letters. */
  function DropPythonTag(s: string): (r: string)
    ensures |r| <= |s| && s[|s| - |r|..] == r
    ensures |r| < |s| <==> StartsWithPython(s)
    ensures |r| < |s| ==> |s| - |r| == 6
  {
    if StartsWithPython(s) then s[6..] else s
  }

  /** The last three cleaning steps: edge quotes, the `python` tag, whitespace. */
  function Finish(s: string): (r: string)
    ensures Trimmed(r, Whitespace)
  {
    Strip(DropPythonTag(Strip(s, EdgeQuotes)), Whitespace)
  }

  /** The first cleaning steps: whitespace, code fences, whitespace. */
  function Unfence(raw: string): (r: string)
    ensures Trimmed(r, Whitespace)
  {
    Strip(DropClosingFence(DropOpeningFence(Strip(raw, Whitespace))), Whitespace)
  }

  /** The cleaning cascade in front of every strategy: whitespace, code fences,
      whitespace, edge quotes, a `python` tag, whitespace. */
  function Clean(raw: string): (r: string)
    ensures Trimmed(r, Whitespace)
  {
    Finish(Unfence(raw))
  }

  /** `d.strip('"\' ')`. */
  function StripItem(d: string): (r: string)
    ensures Trimmed(r, ItemEdges)
  {
    Strip(d, ItemEdges)
  }

  /** The items a decoder produced, each trimmed of quotes and spaces. */
  function StripItems(xs: seq<string>): (r: seq<string>)
    ensures |r| == |xs|
    ensures forall i :: 0 <= i < |r| ==> Trimmed(r[i], ItemEdges)
  {
    seq(|xs|, i requires 0 <= i < |xs| => StripItem(xs[i]))
  }

  /** A piece that `d.strip()` leaves empty. */
  predicate Blank(d: string) {
    Strip(d, Whitespace) == []
  }

  predicate AllBlank(pieces: seq<string>) {
    forall i :: 0 <= i < |pieces| ==> Blank(pieces[i])
  }

  /** `[d.strip('"\' ') for d in pieces if d.strip()]`. */
  function KeepItems(pieces: seq<string>): (r: seq<string>)
    ensures |r| <= |pieces|
    ensures forall i :: 0 <= i < |r| ==> Trimmed(r[i], ItemEdges)
    decreases |pieces|
  {
    if pieces == [] then []
    else (if Blank(pieces[0]) then [] else [StripItem(pieces[0])]) + KeepItems(pieces[1..])
  }

  /** The comma strategy on the bracket-stripped text. */
  function CommaItems(b: string): seq<string> {
    KeepItems(Split(b, ","))
  }

  /** The strategies, in order, on the cleaned text `c`. */
  function Strategies(dec: Decoders, c: string): (r: seq<string>)
    ensures dec.json(c).Some? ==>
      |r| == |dec.json(c).value| &&
      forall i :: 0 <= i < |r| ==> r[i] == Strip(dec.json(c).value[i], ItemEdges)
    ensures dec.json(c).None? && dec.literal(c).Some? ==>
      |r| == |dec.literal(c).value| &&
      forall i :: 0 <= i < |r| ==> r[i] == Strip(dec.literal(c).value[i], ItemEdges)
  {
    var fromJson := dec.json(c);
    if fromJson.Some? then StripItems(fromJson.value)
    else
      var fromLiteral := dec.literal(c);
      if fromLiteral.Some? then StripItems(fromLiteral.value)
      else
        var b := Strip(c, Brackets);
        var items := CommaItems(b);
        if items != [] then items
        else if b != [] then [b]
        else []
  }

  /** `parse_disease_list(raw)` with the two library readers given as `dec`. */
  function Parse(dec: Decoders, raw: string): seq<string> {
    Strategies(dec, Clean(raw))
  }

  /** When neither reader accepts the cleaned text, the comma strategy answers
      unless the bracket-stripped text holds nothing but commas and whitespace;
      only then does the fallback fire, with that text as the single name, or
      with no name at all when it is empty. */
  lemma ParseFallback(dec: Decoders, raw: string)
    requires dec.json(Clean(raw)).None? && dec.literal(Clean(raw)).None?
    ensures var b := Strip(Clean(raw), Brackets);
      !AllIn(b, CommaOrSpace) ==> Parse(dec, raw) == CommaItems(b) != []
    ensures var b := Strip(Clean(raw), Brackets);
      AllIn(b, CommaOrSpace) ==> Parse(dec, raw) == (if b == [] then [] else [b])
  {
    CommaItemsEmptyIff(Strip(Clean(raw), Brackets));
  }

  /** The comma strategy finds nothing exactly when the text is made of commas and whitespace. */
  lemma CommaItemsEmptyIff(b: string)
    ensures CommaItems(b) == [] <==> AllIn(b, CommaOrSpace)
  {
    var ps := Split(b, ",");
    KeepItemsEmptyIff(ps);
    SplitBlankIff(b);
  }

  lemma {:induction false} KeepItemsEmptyIff(pieces: seq<string>)
    ensures KeepItems(pieces) == [] <==> AllBlank(pieces)
    decreases |pieces|
  {
    if pieces != [] {
      KeepItemsEmptyIff(pieces[1..]);
      assert forall i :: 1 <= i < |pieces| ==> pieces[i] == pieces[1..][i - 1];
    }
  }

  /** The comma items are gathered piece by piece, in order: those of `a + b` are
      those of `a` followed by those of `b`. */
  lemma {:induction false} KeepItemsAppend(a: seq<string>, b: seq<string>)
    ensures KeepItems(a + b) == KeepItems(a) + KeepItems(b)
    decreases |a|
  {
    if a == [] {
      assert a + b == b;
    } else {
      KeepItemsAppend(a[1..], b);
      KeepAppendStep(a, b);
    }
  }

  lemma KeepAppendStep(a: seq<string>, b: seq<string>)
    requires a != []
    requires KeepItems(a[1..] + b) == KeepItems(a[1..]) + KeepItems(b)
    ensures KeepItems(a + b) == KeepItems(a) + KeepItems(b)
  {
    ConsSplit(a, b);
    KeepCons(a[0], a[1..] + b);
    KeepCons(a[0], a[1..]);
    Assoc(KeepItems([a[0]]), KeepItems(a[1..]), KeepItems(b));
  }

  lemma ConsSplit(a: seq<string>, b: seq<string>)
    requires a != []
    ensures a == [a[0]] + a[1..] && a + b == [a[0]] + (a[1..] + b)
  {
  }

  lemma KeepCons(d: string, ps: seq<string>)
    ensures KeepItems([d] + ps) == KeepItems([d]) + KeepItems(ps)
  {
    KeepItemsOne(d);
    assert ([d] + ps)[1..] == ps;
  }

  lemma Assoc(x: seq<string>, y: seq<string>, z: seq<string>)
    ensures x + (y + z) == (x + y) + z
  {
  }

  /** One piece gives its trimmed self, or nothing when `d.strip()` is empty. */
  lemma KeepItemsOne(d: string)
    ensures KeepItems([d]) == (if Blank(d) then [] else [StripItem(d)])
  {
    assert [d][1..] == [];
  }

  /** Every piece of `b.split(",")` is blank exactly when `b` is commas and whitespace. */
  lemma {:induction false} SplitBlankIff(b: string)
    ensures AllBlank(Split(b, ",")) <==> AllIn(b, CommaOrSpace)
    decreases |b|
  {
    var ps := Split(b, ",");
    if |b| < 1 {
      StripEmptyIff([], Whitespace);
    } else if StartsWith(b, ",") {
      SplitBlankIff(b[1..]);
      var rest := Split(b[1..], ",");
      assert ps == [[]] + rest;
      StripEmptyIff([], Whitespace);
      assert ps[1..] == rest;
      AllBlankCons(ps);
      AllInCons(b, CommaOrSpace);
    } else {
      SplitBlankIff(b[1..]);
      var rest := Split(b[1..], ",");
      assert ps == [[b[0]] + rest[0]] + rest[1..];
      assert ps[1..] == rest[1..];
      AllBlankCons(ps);
      AllBlankCons(rest);
      BlankCons(b[0], rest[0]);
      AllInCons(b, CommaOrSpace);
      assert b[0] in CommaOrSpace <==> IsSpace(b[0]);
    }
  }

  lemma AllBlankCons(ps: seq<string>)
    requires ps != []
    ensures AllBlank(ps) <==> Blank(ps[0]) && AllBlank(ps[1..])
  {
    assert forall i :: 1 <= i < |ps| ==> ps[i] == ps[1..][i - 1];
  }

  lemma BlankCons(c: char, d: string)
    ensures Blank([c] + d) <==> IsSpace(c) && Blank(d)
  {
    var s := [c] + d;
    StripEmptyIff(s, Whitespace);
    StripEmptyIff(d, Whitespace);
    AllInCons(s, Whitespace);
    assert s[0] == c && s[1..] == d;
    assert c in Whitespace <==> IsSpace(c);
  }

  lemma AllInCons(s: string, chars: set<char>)
    requires s != []
    ensures AllIn(s, chars) <==> s[0] in chars && AllIn(s[1..], chars)
  {
    assert forall k :: 1 <= k < |s| ==> s[k] == s[1..][k - 1];
  }

  // ---- Cleaning ----

  /** Text that the cleaning cascade leaves alone: nothing to trim at either end,
      no fence, no `python` tag. */
  lemma CleanKeeps(c: string)
    requires c != [] && c[0] !in TextEdges && c[|c| - 1] !in TextEdges
    requires !StartsWithPython(c)
    ensures Clean(c) == c
  {
    assert Trimmed(c, Whitespace) && Trimmed(c, EdgeQuotes);
    StripTrimmed(c, Whitespace);
    StripTrimmed(c, EdgeQuotes);
    assert !StartsWith(c, Fence) by { assert c[0] != Fence[0]; }
    assert !EndsWith(c, Fence) by { assert c[|c| - 1] != Fence[2]; }
    assert !EndsWith(c, Fence + "\n") by { assert c[|c| - 1] != '\n'; }
  }

  /** Blank text cleans to nothing. */
  lemma CleanBlank(raw: string)
    requires AllIn(raw, Whitespace)
    ensures Clean(raw) == []
  {
    StripEmptyIff(raw, Whitespace);
  }

  /** Output wrapped in a code fence, with any alphabetic language tag, cleans to
      what the output alone cleans to, as long as the output itself, once trimmed,
      neither starts nor ends with a fence. */
  lemma CleanFenced(tag: string, s: string)
    requires AllIn(tag, AsciiLetters)
    requires !StartsWith(Strip(s, Whitespace), Fence) && !EndsWith(Strip(s, Whitespace), Fence)
    ensures Clean(Fence + tag + "\n" + s + "\n" + Fence) == Clean(s)
  {
    UnfenceFenced(tag, s);
    UnfencePlain(s);
  }

  /** The fence steps take a fenced text to its trimmed content. */
  lemma UnfenceFenced(tag: string, s: string)
    requires AllIn(tag, AsciiLetters)
    ensures Unfence(Fence + tag + "\n" + s + "\n" + Fence) == Strip(s, Whitespace)
  {
    FenceLayout(tag, s);
    OpeningFenceGoes(tag, "\n" + s + "\n" + Fence);
    ClosingFenceGoes("\n" + s + "\n");
    StripLineFeeds(s);
  }

  lemma FenceLayout(tag: string, s: string)
    ensures Fence + tag + ("\n" + s + "\n" + Fence) == Fence + tag + "\n" + s + "\n" + Fence
    ensures "\n" + s + "\n" + Fence == ("\n" + s + "\n") + Fence
  {
  }

  /** Without fences, the fence steps only trim whitespace. */
  lemma UnfencePlain(s: string)
    requires !StartsWith(Strip(s, Whitespace), Fence) && !EndsWith(Strip(s, Whitespace), Fence)
    ensures Unfence(s) == Strip(s, Whitespace)
  {
    NoFenceToDrop(Strip(s, Whitespace));
  }

  /** A fenced text keeps its trimmed form, and the opening fence and tag go. */
  lemma OpeningFenceGoes(tag: string, rest: string)
    requires AllIn(tag, AsciiLetters)
    requires |rest| >= 4 && rest[0] == '\n' && rest[|rest| - 1] == '`'
    ensures DropOpeningFence(Strip(Fence + tag + rest, Whitespace)) == rest
  {
    assert Trimmed(Fence + tag + rest, Whitespace);
    StripTrimmed(Fence + tag + rest, Whitespace);
    assert StartsWith(Fence + tag + rest, Fence);
    assert (Fence + tag + rest)[|Fence|..] == tag + rest;
    LStripSkip(tag, rest, AsciiLetters);
  }

  lemma ClosingFenceGoes(t: string)
    ensures DropClosingFence(t + Fence) == t
  {
    assert EndsWith(t + Fence, Fence);
  }

  /** The line feeds around the fenced output go with the output's own whitespace. */
  lemma StripLineFeeds(s: string)
    ensures Strip("\n" + s + "\n", Whitespace) == Strip(s, Whitespace)
  {
    var p, q := StripParts(s, Whitespace);
    assert "\n" + s + "\n" == ("\n" + p) + Strip(s, Whitespace) + (q + "\n");
    AllInAppend("\n", p, Whitespace);
    AllInAppend(q, "\n", Whitespace);
    StripUnique("\n" + p, Strip(s, Whitespace), q + "\n", Whitespace);
  }

  /** Trimmed text without fences goes through the fence steps unchanged. */
  lemma NoFenceToDrop(t: string)
    requires Trimmed(t, Whitespace) && !StartsWith(t, Fence) && !EndsWith(t, Fence)
    ensures Strip(DropClosingFence(DropOpeningFence(t)), Whitespace) == t
  {
    assert !EndsWith(t, Fence + "\n") by { assert t == [] || t[|t| - 1] != '\n'; }
  }

  // ---- Whole-parser properties ----

  /** Empty or whitespace-only output gives no names, provided neither reader
      accepts the empty text (neither `json.loads` nor `ast.literal_eval` does). */
  lemma ParseBlank(dec: Decoders, raw: string)
    requires dec.json([]).None? && dec.literal([]).None?
    requires AllIn(raw, Whitespace)
    ensures Parse(dec, raw) == []
  {
    CleanBlank(raw);
    assert Split([], ",") == [[]];
    assert Blank([]);
  }

  /** Fenced output parses like the output inside the fence. */
  lemma ParseFenced(dec: Decoders, tag: string, s: string)
    requires AllIn(tag, AsciiLetters)
    requires !StartsWith(Strip(s, Whitespace), Fence) && !EndsWith(Strip(s, Whitespace), Fence)
    ensures Parse(dec, Fence + tag + "\n" + s + "\n" + Fence) == Parse(dec, s)
  {
    CleanFenced(tag, s);
  }

  /** A name the comma strategy reads back unchanged: not blank, no comma, and no
      quote, bracket, backtick or whitespace at either end. */
  predicate Listable(n: string) {
    n != [] && Trimmed(n, NameEdges) && forall k :: 0 <= k < |n| ==> n[k] != ','
  }

  /** The names after the first, each with the space `", "` leaves in front of it. */
  function Spaced(names: seq<string>): (r: seq<string>)
    ensures |r| == |names|
    ensures forall i :: 0 <= i < |r| ==> r[i] == " " + names[i]
  {
    seq(|names|, i requires 0 <= i < |names| => " " + names[i])
  }

  lemma {:induction false} SplitNoSep(a: string, c: char)
    requires forall k :: 0 <= k < |a| ==> a[k] != c
    ensures Split(a, [c]) == [a]
    decreases |a|
  {
    if a != [] {
      assert !StartsWith(a, [c]) by { assert a[0] != c; }
      SplitNoSep(a[1..], c);
      assert [a[0]] + a[1..] == a;
    }
  }

  lemma {:induction false} SplitAfter(a: string, rest: string, c: char)
    requires forall k :: 0 <= k < |a| ==> a[k] != c
    ensures Split(a + [c] + rest, [c]) == [a] + Split(rest, [c])
    decreases |a|
  {
    var s := a + [c] + rest;
    if a == [] {
      assert StartsWith(s, [c]);
      assert s[1..] == rest;
    } else {
      assert !StartsWith(s, [c]) by { assert s[0] == a[0] != c; }
      assert s[1..] == a[1..] + [c] + rest;
      SplitAfter(a[1..], rest, c);
      assert [a[0]] + a[1..] == a;
    }
  }

  /** `", ".join(names).split(",")`: the first name, then the others behind a space. */
  lemma {:induction false} SplitCommaJoin(names: seq<string>)
    requires |names| >= 1 && forall i :: 0 <= i < |names| ==> Listable(names[i])
    ensures Split(Join(names, ", "), ",") == [names[0]] + Spaced(names[1..])
    decreases |names|
  {
    assert forall k :: 0 <= k < |names[0]| ==> names[0][k] != ',';
    if |names| == 1 {
      SplitNoSep(names[0], ',');
    } else {
      SplitCommaJoin(names[1..]);
      CommaSpaceJoin(names);
      SplitSpacedStep(names[0], Join(names[1..], ", "), names[1..]);
    }
  }

  lemma {:induction false} CommaSpaceJoin(names: seq<string>)
    requires |names| >= 2
    ensures Join(names, ", ") == names[0] + [','] + ([' '] + Join(names[1..], ", "))
  {
    CommaSpace(names[0], Join(names[1..], ", "));
  }

  lemma CommaSpace(a: string, b: string)
    ensures a + ", " + b == a + [','] + ([' '] + b)
  {
    assert ", " == [','] + [' '];
  }

  /** One step of the split: the first name, then the pieces of the rest, each
      behind the space that follows its comma. */
  lemma SplitSpacedStep(n: string, j: string, rest: seq<string>)
    requires forall k :: 0 <= k < |n| ==> n[k] != ','
    requires |rest| >= 1 && Split(j, ",") == [rest[0]] + Spaced(rest[1..])
    ensures Split(n + [','] + ([' '] + j), ",") == [n] + Spaced(rest)
  {
    SplitAfter(n, [' '] + j, ',');
    SplitSpace(j);
    SpacedCons(rest, Split(j, ","));
  }

  /** A leading space stays on the first piece. */
  lemma SplitSpace(j: string)
    ensures Split([' '] + j, ",") == [[' '] + Split(j, ",")[0]] + Split(j, ",")[1..]
  {
    assert !StartsWith([' '] + j, ",");
    assert ([' '] + j)[1..] == j;
  }

  lemma SpacedCons(rest: seq<string>, ps: seq<string>)
    requires |rest| >= 1 && ps == [rest[0]] + Spaced(rest[1..])
    ensures [[' '] + ps[0]] + ps[1..] == Spaced(rest)
  {
    assert ps[1..] == Spaced(rest[1..]);
  }

  /** A listable name behind a space is kept, and trimmed back to the name. */
  lemma KeepSpacedName(n: string)
    requires Listable(n)
    ensures !Blank(" " + n) && StripItem(" " + n) == n
  {
    StripEmptyIff(" " + n, Whitespace);
    assert (" " + n)[1] == n[0];
    assert ' ' in ItemEdges;
    assert " " + n == [' '] + n + [];
    StripUnique([' '], n, [], ItemEdges);
  }

  lemma {:induction false} KeepSpaced(names: seq<string>)
    requires forall i :: 0 <= i < |names| ==> Listable(names[i])
    ensures KeepItems(Spaced(names)) == names
    decreases |names|
  {
    if names != [] {
      KeepSpacedName(names[0]);
      KeepSpaced(names[1..]);
      SpacedTail(names);
      KeepFirst(Spaced(names));
      assert [names[0]] + names[1..] == names;
    }
  }

  lemma SpacedTail(names: seq<string>)
    requires names != []
    ensures Spaced(names)[1..] == Spaced(names[1..])
  {
  }

  /** The comma strategy reads back a `", "`-joined list of listable names. */
  lemma CommaItemsOfJoin(names: seq<string>)
    requires |names| >= 1 && forall i :: 0 <= i < |names| ==> Listable(names[i])
    ensures CommaItems(Join(names, ", ")) == names
  {
    SplitCommaJoin(names);
    KeepJoinPieces(names);
  }

  /** The comma pieces of a joined list are kept, each trimmed back to its name. */
  lemma KeepJoinPieces(names: seq<string>)
    requires |names| >= 1 && forall i :: 0 <= i < |names| ==> Listable(names[i])
    ensures KeepItems([names[0]] + Spaced(names[1..])) == names
  {
    var ps := [names[0]] + Spaced(names[1..]);
    KeepSpaced(names[1..]);
    KeepListable(names[0]);
    assert ps[1..] == Spaced(names[1..]);
    KeepFirst(ps);
    assert names == [names[0]] + names[1..];
  }

  lemma KeepListable(n: string)
    requires Listable(n)
    ensures !Blank(n) && StripItem(n) == n
  {
    StripEmptyIff(n, Whitespace);
    StripTrimmed(n, ItemEdges);
  }

  lemma KeepFirst(ps: seq<string>)
    requires ps != [] && !Blank(ps[0])
    ensures KeepItems(ps) == [StripItem(ps[0])] + KeepItems(ps[1..])
  {
  }

  lemma {:induction false} JoinEnds(names: seq<string>, sep: string)
    requires |names| >= 1 && forall i :: 0 <= i < |names| ==> names[i] != []
    ensures var j := Join(names, sep);
      |j| >= 1 && j[0] == names[0][0] && j[|j| - 1] == names[|names| - 1][|names[|names| - 1]| - 1]
    decreases |names|
  {
    if |names| > 1 {
      JoinEnds(names[1..], sep);
    }
  }

  /** Round trip through the comma strategy: names written as `a, b, c` parse back
      to the same names, whenever neither reader takes the text for a list. */
  lemma ParseCommaList(dec: Decoders, names: seq<string>)
    requires |names| >= 1 && forall i :: 0 <= i < |names| ==> Listable(names[i])
    requires !StartsWithPython(Join(names, ", "))
    requires dec.json(Join(names, ", ")).None? && dec.literal(Join(names, ", ")).None?
    ensures Parse(dec, Join(names, ", ")) == names
  {
    JoinCleans(names);
    CommaItemsOfJoin(names);
    ParseByComma(dec, Join(names, ", "));
  }

  /** A `", "`-joined list of listable names needs no cleaning and has no brackets. */
  lemma JoinCleans(names: seq<string>)
    requires |names| >= 1 && forall i :: 0 <= i < |names| ==> Listable(names[i])
    requires !StartsWithPython(Join(names, ", "))
    ensures Clean(Join(names, ", ")) == Join(names, ", ")
    ensures Strip(Join(names, ", "), Brackets) == Join(names, ", ")
  {
    JoinEdges(names);
    EdgesKeep(Join(names, ", "));
  }

  /** A `", "`-joined list of listable names begins and ends like a listable name. */
  lemma JoinEdges(names: seq<string>)
    requires |names| >= 1 && forall i :: 0 <= i < |names| ==> Listable(names[i])
    ensures Edged(Join(names, ", "))
  {
    JoinEnds(names, ", ");
    assert Listable(names[0]) && Listable(names[|names| - 1]);
  }

  /** Non-empty, and neither end is whitespace, a quote, a backtick or a bracket. */
  predicate Edged(c: string) {
    c != [] && c[0] !in NameEdges && c[|c| - 1] !in NameEdges
  }

  /** A text with such ends is left alone by cleaning and by the bracket strip,
      unless it starts with `python`. */
  lemma EdgesKeep(c: string)
    requires Edged(c) && !StartsWithPython(c)
    ensures Clean(c) == c && Strip(c, Brackets) == c
  {
    CleanKeeps(c);
    StripTrimmed(c, Brackets);
  }

  /** Text that needs no cleaning, that neither reader accepts and that has no
      brackets to strip goes to the comma strategy. */
  lemma ParseByComma(dec: Decoders, c: string)
    requires Clean(c) == c && Strip(c, Brackets) == c
    requires dec.json(c).None? && dec.literal(c).None?
    requires CommaItems(c) != []
    ensures Parse(dec, c) == CommaItems(c)
  {
  }

  /** The quoted-list grammar never takes such a text for a list: it has no bracket. */
  lemma ParseCommaListQuoted(names: seq<string>)
    requires |names| >= 1 && forall i :: 0 <= i < |names| ==> Listable(names[i])
    requires !StartsWithPython(Join(names, ", "))
    ensures Parse(QuotedLists, Join(names, ", ")) == names
  {
    JoinEnds(names, ", ");
    assert Listable(names[0]);
    QuotedListsNeedBracket(Join(names, ", "));
    ParseCommaList(QuotedLists, names);
  }

  /** Neither quoted-list notation reads a text that does not open with a bracket. */
  lemma QuotedListsNeedBracket(c: string)
    requires c == [] || c[0] != '['
    ensures QuotedLists.json(c).None? && QuotedLists.literal(c).None?
  {
  }

  /** A bare name is a one-name list. */
  lemma ParseBareName(n: string)
    requires Listable(n) && !StartsWithPython(n)
    ensures Parse(QuotedLists, n) == [n]
  {
    assert Join([n], ", ") == n;
    ParseCommaListQuoted([n]);
  }

  /** The `python` tag is removed even when it is not a tag: a comma list whose
      first name begins with `python`, in any case, loses those six letters, so
      `Pythonx, b` reads as `x` and `b` when neither reader takes the text. */
  lemma ParsePythonTagged(dec: Decoders, tag: string, names: seq<string>)
    requires |tag| == 6 && StartsWithPython(tag)
    requires |names| >= 1 && forall i :: 0 <= i < |names| ==> Listable(names[i])
    requires dec.json(Join(names, ", ")).None? && dec.literal(Join(names, ", ")).None?
    ensures Parse(dec, Join([tag + names[0]] + names[1..], ", ")) == names
  {
    var c := Join(names, ", ");
    JoinPrefixFirst(tag, names, ", ");
    JoinEdges(names);
    CleanTagged(tag, c);
    StripTrimmed(c, Brackets);
    CommaItemsOfJoin(names);
  }

  /** The same for the quoted-list grammar, which takes no bracketless text. */
  lemma ParsePythonTaggedQuoted(tag: string, names: seq<string>)
    requires |tag| == 6 && StartsWithPython(tag)
    requires |names| >= 1 && forall i :: 0 <= i < |names| ==> Listable(names[i])
    ensures Parse(QuotedLists, Join([tag + names[0]] + names[1..], ", ")) == names
  {
    JoinEnds(names, ", ");
    assert Listable(names[0]);
    QuotedListsNeedBracket(Join(names, ", "));
    ParsePythonTagged(QuotedLists, tag, names);
  }

  /** An instance: the first name of `Pythonx, b` loses its first six letters. */
  lemma ParsePythonPrefixedName()
    ensures Parse(QuotedLists, "Pythonx, b") == ["x", "b"]
  {
    assert "Pythonx, b" == Join(["Python" + "x"] + ["b"], ", ");
    assert Listable("x") && Listable("b");
    ParsePythonTaggedQuoted("Python", ["x", "b"]);
  }

  /** A text that starts with a `python` tag in front of an edged text cleans to
      that text. */
  lemma CleanTagged(tag: string, c: string)
    requires |tag| == 6 && StartsWithPython(tag) && Edged(c)
    ensures Clean(tag + c) == c
  {
    var t := tag + c;
    assert AsciiLower(tag[0]) == 'p';
    assert t[0] == tag[0] && t[|t| - 1] == c[|c| - 1];
    assert t[0] !in TextEdges;
    assert Trimmed(t, Whitespace) && Trimmed(t, EdgeQuotes);
    StripTrimmed(t, Whitespace);
    assert !StartsWith(t, Fence) by { assert t[0] != Fence[0]; }
    assert !EndsWith(t, Fence) by { assert t[|t| - 1] != Fence[2]; }
    NoFenceToDrop(t);
    StripTrimmed(t, EdgeQuotes);
    assert StartsWithPython(t) by {
      forall k | 0 <= k < 6 ensures AsciiLower(t[k]) == "python"[k] {
        assert t[k] == tag[k];
      }
    }
    assert t[6..] == c;
    StripTrimmed(c, Whitespace);
  }

  /** Items that survive `str.strip` unchanged come back from a reader unchanged. */
  lemma StripItemsKeeps(items: seq<string>)
    requires forall i :: 0 <= i < |items| ==> Trimmed(items[i], ItemEdges)
    ensures StripItems(items) == items
  {
    forall i | 0 <= i < |items| ensures StripItems(items)[i] == items[i] {
      StripTrimmed(items[i], ItemEdges);
    }
  }

  /** The JSON reader answers whenever it accepts the cleaned text. */
  lemma ParseByJson(dec: Decoders, raw: string)
    requires dec.json(Clean(raw)).Some?
    ensures Parse(dec, raw) == StripItems(dec.json(Clean(raw)).value)
  {
  }

  /** The literal reader answers when it accepts the cleaned text and JSON does not. */
  lemma ParseByLiteral(dec: Decoders, raw: string)
    ensures dec.json(Clean(raw)).None? && dec.literal(Clean(raw)).Some? ==>
      Parse(dec, raw) == StripItems(dec.literal(Clean(raw)).value)
  {
  }

  /** Text that needs no cleaning and that a reader reads as items that need no
      trimming parses to exactly those items. */
  lemma ParseReadsBack(dec: Decoders, s: string, items: seq<string>)
    requires Clean(s) == s
    requires dec.json(s) == Some(items) || (dec.json(s).None? && dec.literal(s) == Some(items))
    requires forall i :: 0 <= i < |items| ==> Trimmed(items[i], ItemEdges)
    ensures Parse(dec, s) == items
  {
    StripItemsKeeps(items);
  }

  /** A JSON array of strings, as a model writes it, parses to its strings. */
  lemma ParseJsonArray(items: seq<string>)
    requires forall i :: 0 <= i < |items| ==> ListSyntax.PlainItem(items[i]) && Trimmed(items[i], ItemEdges)
    ensures Parse(QuotedLists, ListSyntax.Render('"', items)) == items
  {
    ListSyntax.DecodeRender(ListSyntax.Json, '"', items);
    RenderCleans('"', items);
    ParseReadsBack(QuotedLists, ListSyntax.Render('"', items), items);
  }

  /** A Python list of strings in single quotes is no JSON; the literal reader takes it. */
  lemma ParsePythonList(items: seq<string>)
    requires forall i :: 0 <= i < |items| ==> ListSyntax.PlainItem(items[i]) && Trimmed(items[i], ItemEdges)
    ensures Parse(QuotedLists, ListSyntax.Render('\'', items)) == items
  {
    if items == [] {
      assert ListSyntax.Render('\'', items) == ListSyntax.Render('"', items);
      ParseJsonArray(items);
    } else {
      ListSyntax.JsonRejectsSingleQuotes(items);
      ListSyntax.DecodeRender(ListSyntax.PythonLiteral, '\'', items);
      RenderCleans('\'', items);
      ParseReadsBack(QuotedLists, ListSyntax.Render('\'', items), items);
    }
  }

  /** A rendered list is left alone by the cleaning: it is bracketed. */
  lemma RenderCleans(q: char, items: seq<string>)
    ensures Clean(ListSyntax.Render(q, items)) == ListSyntax.Render(q, items)
  {
    var s := ListSyntax.Render(q, items);
    assert s[0] == '[' && s[|s| - 1] == ']';
    CleanKeeps(s);
  }

  /** A comma piece made of quotes only is not blank, so it is kept, and trimming
      its quotes leaves an empty name: `a,'',b` lists an empty name between `a` and `b`. */
  lemma QuotesOnlyPieceGivesEmptyName(d: string)
    requires d != [] && AllIn(d, {'"', '\''})
    ensures !Blank(d) && StripItem(d) == []
  {
    assert d[0] !in Whitespace;
    StripEmptyIff(d, Whitespace);
    StripEmptyIff(d, ItemEdges);
  }
}

=== FILE: pystr.dfy ===
/**
 The handful of Python `str` operations the program relies on, written out with
 Python's exact semantics: `strip`/`lstrip`/`rstrip` with and without a character
 argument, `split(sep)`, `split()` on whitespace, `replace(pat, repl)` (every
 leftmost non-overlapping occurrence, and the empty-`pat` case), `in`, and `str(n)` for naturals.
 */
module PyStr {

  /** Python's `str.isspace` for one character; `strip()` and `split()` with no
      argument use exactly these characters. */
  predicate IsSpace(c: char) {
    ('\t' <= c <= '\r') || ('\U{1C}' <= c <= ' ') || c == '\U{85}' || c == '\U{A0}'
    || c == '\U{1680}' || ('\U{2000}' <= c <= '\U{200A}') || c == '\U{2028}'
    || c == '\U{2029}' || c == '\U{202F}' || c == '\U{205F}' || c == '\U{3000}'
  }

  const Whitespace: set<char> := set c: char | IsSpace(c)

  /** Every character of `s` belongs to `chars`. */
  predicate AllIn(s: string, chars: set<char>) {
    forall k :: 0 <= k < |s| ==> s[k] in chars
  }

  /** Neither end of `s` is in `chars` (vacuous for the empty string): `s` is its own strip. */
  predicate Trimmed(s: string, chars: set<char>) {
    s == [] || (s[0] !in chars && s[|s| - 1] !in chars)
  }

  /** `s.lstrip(chars)`: drop the longest prefix made of `chars`. */
  function LStrip(s: string, chars: set<char>): (r: string)
    ensures |r| <= |s|
    ensures r == [] || r[0] !in chars
    decreases |s|
  {
    if |s| > 0 && s[0] in chars then LStrip(s[1..], chars) else s
  }

  /** `s.rstrip(chars)`: drop the longest suffix made of `chars`. */
  function RStrip(s: string, chars: set<char>): (r: string)
    ensures |r| <= |s|
    ensures r == [] || r[|r| - 1] !in chars
    decreases |s|
  {
    if |s| > 0 && s[|s| - 1] in chars then RStrip(s[..|s| - 1], chars) else s
  }

  /** `s.strip(chars)`: both `lstrip` and `rstrip`; the result has no end in `chars`. */
  function Strip(s: string, chars: set<char>): (r: string)
    ensures |r| <= |s| && Trimmed(r, chars)
  {
    RStripPrefix(LStrip(s, chars), chars);
    RStrip(LStrip(s, chars), chars)
  }

  /** What `rstrip` keeps is a prefix of its input. */
  lemma {:induction false} RStripPrefix(s: string, chars: set<char>)
    ensures RStrip(s, chars) == s[..|RStrip(s, chars)|]
    decreases |s|
  {
    if |s| > 0 && s[|s| - 1] in chars {
      RStripPrefix(s[..|s| - 1], chars);
    }
  }

  /** Dropping a margin of `chars` in front of a string whose first character is not in `chars`. */
  lemma {:induction false} LStripSkip(p: string, t: string, chars: set<char>)
    requires AllIn(p, chars) && (t == [] || t[0] !in chars)
    ensures LStrip(p + t, chars) == t
    decreases |p|
  {
    if p != [] {
      assert (p + t)[1..] == p[1..] + t;
      LStripSkip(p[1..], t, chars);
    }
  }

  /** Dropping a margin of `chars` behind a string whose last character is not in `chars`. */
  lemma {:induction false} RStripSkip(t: string, q: string, chars: set<char>)
    requires AllIn(q, chars) && (t == [] || t[|t| - 1] !in chars)
    ensures RStrip(t + q, chars) == t
    decreases |q|
  {
    if q != [] {
      assert (t + q)[..|t + q| - 1] == t + q[..|q| - 1];
      RStripSkip(t, q[..|q| - 1], chars);
    }
  }

  /** The strip is unique: whenever `s` is a margin of `chars`, a middle with no
      end in `chars`, and a margin of `chars`, `s.strip(chars)` is that middle. */
  lemma StripUnique(p: string, m: string, q: string, chars: set<char>)
    requires AllIn(p, chars) && AllIn(q, chars) && Trimmed(m, chars)
    ensures Strip(p + m + q, chars) == m
  {
    if m == [] {
      assert p + m + q == (p + q) + [];
      LStripSkip(p + q, [], chars);
    } else {
      assert p + m + q == p + (m + q);
      LStripSkip(p, m + q, chars);
      RStripSkip(m, q, chars);
    }
  }

  /** A string with no end in `chars` is its own strip. */
  lemma StripTrimmed(s: string, chars: set<char>)
    requires Trimmed(s, chars)
    ensures Strip(s, chars) == s
  {
    StripUnique([], s, [], chars);
    assert [] + s + [] == s;
  }

  /** `lstrip` removes a prefix made only of characters of `chars`. */
  lemma {:induction false} LStripParts(s: string, chars: set<char>) returns (p: string)
    ensures AllIn(p, chars) && s == p + LStrip(s, chars)
    decreases |s|
  {
    if |s| > 0 && s[0] in chars {
      var p' := LStripParts(s[1..], chars);
      p := [s[0]] + p';
      assert s == [s[0]] + s[1..];
    } else {
      p := [];
    }
  }

  /** The same, read off `s` by position: `lstrip` keeps a suffix of `s`, and what
      lies in front of it is all in `chars`. */
  lemma LStripMargin(s: string, chars: set<char>)
    ensures s[|s| - |LStrip(s, chars)|..] == LStrip(s, chars)
    ensures AllIn(s[..|s| - |LStrip(s, chars)|], chars)
  {
    var p := LStripParts(s, chars);
    assert s[..|p|] == p;
  }

  /** `rstrip` removes a suffix made only of characters of `chars`. */
  lemma {:induction false} RStripParts(s: string, chars: set<char>) returns (q: string)
    ensures AllIn(q, chars) && s == RStrip(s, chars) + q
    decreases |s|
  {
    if |s| > 0 && s[|s| - 1] in chars {
      var q' := RStripParts(s[..|s| - 1], chars);
      q := q' + [s[|s| - 1]];
      assert s == s[..|s| - 1] + [s[|s| - 1]];
    } else {
      q := [];
    }
  }

  /** What `strip` removes is a margin of `chars` on each side. */
  lemma StripParts(s: string, chars: set<char>) returns (p: string, q: string)
    ensures AllIn(p, chars) && AllIn(q, chars) && s == p + Strip(s, chars) + q
  {
    p := LStripParts(s, chars);
    q := RStripParts(LStrip(s, chars), chars);
  }

  /** Stripping removes only characters of `chars`: it is empty exactly when all of `s` is. */
  lemma StripEmptyIff(s: string, chars: set<char>)
    ensures Strip(s, chars) == [] <==> AllIn(s, chars)
  {
    if AllIn(s, chars) {
      StripUnique(s, [], [], chars);
      assert s + [] + [] == s;
    }
    var p, q := StripParts(s, chars);
    if Strip(s, chars) == [] {
      assert s == p + q;
      forall k | 0 <= k < |s| ensures s[k] in chars {
        if k < |p| { assert s[k] == p[k]; } else { assert s[k] == q[k - |p|]; }
      }
    }
  }

  /** `s.startswith(t)`. */
  predicate StartsWith(s: string, t: string) {
    |t| <= |s| && s[..|t|] == t
  }

  /** `s.endswith(t)`. */
  predicate EndsWith(s: string, t: string) {
    |t| <= |s| && s[|s| - |t|..] == t
  }

  /** `t in s` for strings: `t` occurs in `s` at some position. */
  predicate Occurs(s: string, t: string) {
    exists i :: 0 <= i <= |s| - |t| && StartsWith(s[i..], t)
  }

  /** `sep.join(parts)`. */
  function Join(parts: seq<string>, sep: string): string
    decreases |parts|
  {
    if |parts| == 0 then []
    else if |parts| == 1 then parts[0]
    else parts[0] + sep + Join(parts[1..], sep)
  }

  /** `s.split(sep)` for a non-empty separator: the pieces between the occurrences
      of `sep` found scanning left to right, so always at least one piece. */
  function Split(s: string, sep: string): (r: seq<string>)
    requires sep != []
    ensures |r| >= 1
    decreases |s|
  {
    if |s| < |sep| then [s]
    else if StartsWith(s, sep) then [[]] + Split(s[|sep|..], sep)
    else
      var rest := Split(s[1..], sep);
      [[s[0]] + rest[0]] + rest[1..]
  }

  /** `s.replace(pat, repl)`: every non-overlapping occurrence, scanning left to
      right; an empty `pat` matches before every character and at the end. */
  function Replace(s: string, pat: string, repl: string): string
    decreases |s|
  {
    if pat == [] then Interleave(s, repl)
    else if |s| < |pat| then s
    else if StartsWith(s, pat) then repl + Replace(s[|pat|..], pat, repl)
    else [s[0]] + Replace(s[1..], pat, repl)
  }

  /** `s.replace("", repl)`. */
  function Interleave(s: string, repl: string): string
    decreases |s|
  {
    if s == [] then repl else repl + [s[0]] + Interleave(s[1..], repl)
  }

  /** Gluing a character onto the first piece commutes with joining. */
  lemma JoinConsFirst(c: char, parts: seq<string>, sep: string)
    requires |parts| >= 1
    ensures Join([[c] + parts[0]] + parts[1..], sep) == [c] + Join(parts, sep)
  {
    var ps := [[c] + parts[0]] + parts[1..];
    assert ps[1..] == parts[1..];
  }

  /** Text glued to the first piece comes out in front of the whole join. */
  lemma JoinPrefixFirst(p: string, parts: seq<string>, sep: string)
    requires |parts| >= 1
    ensures Join([p + parts[0]] + parts[1..], sep) == p + Join(parts, sep)
  {
    var ps := [p + parts[0]] + parts[1..];
    assert ps[1..] == parts[1..];
    if |parts| > 1 {
      assert p + parts[0] + sep + Join(parts[1..], sep) == p + (parts[0] + sep + Join(parts[1..], sep));
    }
  }

  /** An empty first piece leaves just the separator in front. */
  lemma JoinConsEmpty(parts: seq<string>, sep: string)
    requires |parts| >= 1
    ensures Join([[]] + parts, sep) == sep + Join(parts, sep)
  {
    assert ([[]] + parts)[1..] == parts;
  }

  /** `s.replace(pat, repl) == repl.join(s.split(pat))`: the occurrences of `pat`
      at which the split cuts (every leftmost non-overlapping one, by
      `SplitPiecesFree` and `SplitLeftmost`) are replaced and the text between them
      is kept as it is. */
  lemma {:induction false} ReplaceIsJoinOfSplit(s: string, pat: string, repl: string)
    requires pat != []
    ensures Replace(s, pat, repl) == Join(Split(s, pat), repl)
    decreases |s|
  {
    if |s| < |pat| {
    } else if StartsWith(s, pat) {
      ReplaceIsJoinOfSplit(s[|pat|..], pat, repl);
      JoinConsEmpty(Split(s[|pat|..], pat), repl);
    } else {
      ReplaceIsJoinOfSplit(s[1..], pat, repl);
      JoinConsFirst(s[0], Split(s[1..], pat), repl);
    }
  }

  /** Replacing a string by itself changes nothing, also for the empty string. */
  lemma {:induction false} ReplaceSelf(s: string, pat: string)
    ensures Replace(s, pat, pat) == s
    decreases |s|
  {
    if pat == [] {
      InterleaveEmpty(s);
    } else if |s| < |pat| {
    } else if StartsWith(s, pat) {
      ReplaceSelf(s[|pat|..], pat);
      assert s == pat + s[|pat|..];
    } else {
      ReplaceSelf(s[1..], pat);
      assert s == [s[0]] + s[1..];
    }
  }

  lemma {:induction false} InterleaveEmpty(s: string)
    ensures Interleave(s, []) == s
    decreases |s|
  {
    if s != [] {
      InterleaveEmpty(s[1..]);
      assert s == [s[0]] + s[1..];
    }
  }

  /** Round trip: joining the pieces of `s.split(sep)` with `sep` gives back `s`. */
  lemma SplitJoinRoundTrip(s: string, sep: string)
    requires sep != []
    ensures Join(Split(s, sep), sep) == s
  {
    ReplaceIsJoinOfSplit(s, sep, sep);
    ReplaceSelf(s, sep);
  }

  /** The first piece of `s.split(sep)` is a prefix of `s`. */
  lemma {:induction false} SplitFirstPrefix(s: string, sep: string)
    requires sep != []
    ensures |Split(s, sep)[0]| <= |s| && s[..|Split(s, sep)[0]|] == Split(s, sep)[0]
    decreases |s|
  {
    if |s| >= |sep| && !StartsWith(s, sep) {
      SplitFirstPrefix(s[1..], sep);
      var w := Split(s[1..], sep)[0];
      assert s[..1 + |w|] == [s[0]] + s[1..][..|w|];
    }
  }

  /** No piece of `s.split(sep)` contains `sep`; `SplitLeftmost` adds that every
      cut is made at the leftmost occurrence still available. */
  lemma {:induction false} SplitPiecesFree(s: string, sep: string)
    requires sep != []
    ensures forall i :: 0 <= i < |Split(s, sep)| ==> !Occurs(Split(s, sep)[i], sep)
    decreases |s|
  {
    if |s| < |sep| {
    } else if StartsWith(s, sep) {
      SplitPiecesFree(s[|sep|..], sep);
      FreeCons([], Split(s[|sep|..], sep), sep);
    } else {
      var rest := Split(s[1..], sep);
      SplitPiecesFree(s[1..], sep);
      SplitFirstPrefix(s[1..], sep);
      assert s[..1 + |rest[0]|] == [s[0]] + rest[0];
      if StartsWith([s[0]] + rest[0], sep) {
        PrefixStartsWith(s, [s[0]] + rest[0], sep);
      }
      NoOccursCons(s[0], rest[0], sep);
      FreeCons([s[0]] + rest[0], rest[1..], sep);
    }
  }

  /** `s.split(sep)` cuts at the leftmost occurrence each time: no occurrence of
      `sep` starts inside a piece that a cut follows. With `SplitJoinRoundTrip` and
      `SplitPiecesFree` this fixes the pieces, also for a `sep` that overlaps
      itself (`"aaa".split("aa")` is `["", "a"]`, never `["a", ""]`). */
  lemma {:induction false} SplitLeftmost(s: string, sep: string)
    requires sep != []
    ensures forall i :: 0 <= i < |Split(s, sep)| - 1 ==>
      !Occurs(Split(s, sep)[i] + sep[..|sep| - 1], sep)
    decreases |s|
  {
    var tail := sep[..|sep| - 1];
    if |s| < |sep| {
    } else if StartsWith(s, sep) {
      SplitLeftmost(s[|sep|..], sep);
      assert !Occurs([] + tail, sep);
      LeftmostCons([], Split(s[|sep|..], sep), sep);
    } else {
      var rest := Split(s[1..], sep);
      SplitLeftmost(s[1..], sep);
      if |rest| >= 2 {
        SplitJoinRoundTrip(s[1..], sep);
        JoinHead(rest, sep);
        PrefixAfterFirst(s, rest[0] + tail);
        if StartsWith([s[0]] + (rest[0] + tail), sep) {
          PrefixStartsWith(s, [s[0]] + (rest[0] + tail), sep);
        }
        NoOccursCons(s[0], rest[0] + tail, sep);
        assert [s[0]] + (rest[0] + tail) == ([s[0]] + rest[0]) + tail;
      }
      LeftmostCons([s[0]] + rest[0], rest[1..], sep);
      assert [[s[0]] + rest[0]] + rest[1..] == Split(s, sep);
    }
  }

  lemma LeftmostCons(w: string, ws: seq<string>, sep: string)
    requires sep != []
    requires ws != [] ==> !Occurs(w + sep[..|sep| - 1], sep)
    requires forall i :: 0 <= i < |ws| - 1 ==> !Occurs(ws[i] + sep[..|sep| - 1], sep)
    ensures forall i :: 0 <= i < |[w] + ws| - 1 ==> !Occurs(([w] + ws)[i] + sep[..|sep| - 1], sep)
  {
    assert forall i :: 1 <= i < |[w] + ws| ==> ([w] + ws)[i] == ws[i - 1];
  }

  /** A join of two or more pieces starts with the first piece and the separator. */
  lemma JoinHead(parts: seq<string>, sep: string)
    requires |parts| >= 2 && sep != []
    ensures |parts[0] + sep[..|sep| - 1]| <= |Join(parts, sep)|
    ensures Join(parts, sep)[..|parts[0]| + |sep| - 1] == parts[0] + sep[..|sep| - 1]
  {
    assert Join(parts, sep) == parts[0] + sep + Join(parts[1..], sep);
  }

  lemma PrefixAfterFirst(s: string, u: string)
    requires s != [] && |u| <= |s[1..]| && s[1..][..|u|] == u
    ensures |[s[0]] + u| <= |s| && s[..|[s[0]] + u|] == [s[0]] + u
  {
    assert s[..1 + |u|] == [s[0]] + s[1..][..|u|];
  }

  lemma FreeCons(w: string, ws: seq<string>, sep: string)
    requires !Occurs(w, sep)
    requires forall i :: 0 <= i < |ws| ==> !Occurs(ws[i], sep)
    ensures forall i :: 0 <= i < |[w] + ws| ==> !Occurs(([w] + ws)[i], sep)
  {
    assert forall i :: 1 <= i < |[w] + ws| ==> ([w] + ws)[i] == ws[i - 1];
  }

  lemma PrefixStartsWith(s: string, u: string, t: string)
    requires |u| <= |s| && s[..|u|] == u && StartsWith(u, t)
    ensures StartsWith(s, t)
  {
    assert s[..|t|] == u[..|t|];
  }

  /** A string that does not begin with `t` and whose tail holds no `t` holds none. */
  lemma NoOccursCons(c: char, w: string, t: string)
    requires t != [] && !Occurs(w, t) && !StartsWith([c] + w, t)
    ensures !Occurs([c] + w, t)
  {
    forall i | 0 <= i <= |[c] + w| - |t| ensures !StartsWith(([c] + w)[i..], t) {
      if i == 0 {
        assert ([c] + w)[i..] == [c] + w;
      } else {
        assert ([c] + w)[i..] == w[i - 1..];
      }
    }
  }

  /** A prefix occurrence is an occurrence. */
  lemma OccursAtStart(s: string, t: string)
    ensures StartsWith(s, t) ==> Occurs(s, t)
  {
    if StartsWith(s, t) {
      assert s[0..] == s;
    }
  }

  /** An occurrence in the tail is an occurrence. */
  lemma OccursInTail(s: string, t: string)
    requires s != []
    ensures Occurs(s[1..], t) ==> Occurs(s, t)
  {
    if Occurs(s[1..], t) {
      var i :| 0 <= i <= |s[1..]| - |t| && StartsWith(s[1..][i..], t);
      assert s[1..][i..] == s[i + 1..];
    }
  }

  /** With an absent, non-empty `pat`, `replace` returns the text unchanged. */
  lemma {:induction false} ReplaceAbsent(s: string, pat: string, repl: string)
    requires pat != [] && !Occurs(s, pat)
    ensures Replace(s, pat, repl) == s
    decreases |s|
  {
    if |s| >= |pat| {
      OccursAtStart(s, pat);
      OccursInTail(s, pat);
      ReplaceAbsent(s[1..], pat, repl);
      assert s == [s[0]] + s[1..];
    }
  }

  /** An occurrence that is not at the start is in the tail. */
  lemma OccursLater(s: string, t: string)
    requires Occurs(s, t) && !StartsWith(s, t)
    ensures s != [] && Occurs(s[1..], t)
  {
    var i :| 0 <= i <= |s| - |t| && StartsWith(s[i..], t);
    assert s[0..] == s;
    assert i > 0;
    assert s[1..][i - 1..] == s[i..];
  }

  /** Occurrence is transitive: what occurs in a part occurs in the whole. */
  lemma OccursTrans(a: string, b: string, c: string)
    requires Occurs(a, b) && Occurs(b, c)
    ensures Occurs(a, c)
  {
    var i :| 0 <= i <= |a| - |b| && StartsWith(a[i..], b);
    var j :| 0 <= j <= |b| - |c| && StartsWith(b[j..], c);
    assert a[i..][..|b|] == b;
    forall k | 0 <= k < |c| ensures a[i + j + k] == c[k] {
      assert a[i + j + k] == a[i..][..|b|][j + k];
      assert c[k] == b[j..][..|c|][k];
    }
    assert a[i + j..][..|c|] == c;
  }

  /** A string occurs in any text that has it between two other strings. */
  lemma OccursInMiddle(x: string, t: string, y: string)
    ensures Occurs(x + t + y, t)
  {
    assert (x + t + y)[|x|..][..|t|] == t;
    assert StartsWith((x + t + y)[|x|..], t);
  }

  /** Replacing a pattern that occurs leaves the replacement in the text. */
  lemma {:induction false} ReplaceShowsRepl(s: string, pat: string, repl: string)
    requires pat != []
    ensures Occurs(s, pat) ==> Occurs(Replace(s, pat, repl), repl)
    decreases |s|
  {
    if |s| >= |pat| && Occurs(s, pat) {
      if StartsWith(s, pat) {
        OccursInMiddle([], repl, Replace(s[|pat|..], pat, repl));
        assert [] + repl + Replace(s[|pat|..], pat, repl) == repl + Replace(s[|pat|..], pat, repl);
      } else {
        OccursLater(s, pat);
        ReplaceShowsRepl(s[1..], pat, repl);
        var r := [s[0]] + Replace(s[1..], pat, repl);
        assert r[1..] == Replace(s[1..], pat, repl);
        OccursInTail(r, repl);
      }
    }
  }

  /** With an empty `pat`, `repl` is inserted before each character and at the end. */
  lemma {:induction false} ReplaceEmptyLength(s: string, repl: string)
    ensures |Replace(s, [], repl)| == |s| + (|s| + 1) * |repl|
    decreases |s|
  {
    if s != [] {
      ReplaceEmptyLength(s[1..], repl);
      assert |Interleave(s, repl)| == |repl| + 1 + |Interleave(s[1..], repl)|;
      assert (|s| + 1) * |repl| == |repl| + |s| * |repl|;
      assert (|s| - 1 + 1) * |repl| == |s| * |repl|;
    }
  }

  /** `r` holds a copy of `repl` at position `k * (|repl| + 1)`, followed by `c`. */
  predicate MarkedAt(r: string, repl: string, k: nat, c: char) {
    var at := k * (|repl| + 1);
    at + |repl| < |r| && r[at..at + |repl|] == repl && r[at + |repl|] == c
  }

  /** With an empty `pat`, the `k`-th character of `s` sits right after the `k`-th
      copy of `repl`: each character is preceded by its own copy. */
  lemma {:induction false} ReplaceEmptyAt(s: string, repl: string, k: nat)
    requires k < |s|
    ensures MarkedAt(Replace(s, [], repl), repl, k, s[k])
    decreases k
  {
    assert Interleave(s, repl) == (repl + [s[0]]) + Interleave(s[1..], repl);
    if k > 0 {
      ReplaceEmptyAt(s[1..], repl, k - 1);
      MarkedShift(repl + [s[0]], Interleave(s[1..], repl), repl, k - 1, s[k]);
    } else {
      assert (repl + [s[0]] + Interleave(s[1..], repl))[..|repl|] == repl;
    }
  }

  lemma MarkedShift(h: string, t: string, repl: string, k: nat, c: char)
    requires |h| == |repl| + 1 && MarkedAt(t, repl, k, c)
    ensures MarkedAt(h + t, repl, k + 1, c)
  {
    var at := k * (|repl| + 1);
    assert (k + 1) * (|repl| + 1) == |h| + at;
    InterleaveShift(h, t, at, |repl|);
  }

  /** The layout of `s.replace("", repl)`: a copy of `repl` in front of each
      character, and one at the end. */
  lemma ReplaceEmptyLayout(s: string, repl: string)
    ensures forall k :: 0 <= k < |s| ==> MarkedAt(Replace(s, [], repl), repl, k, s[k])
    ensures EndsWith(Replace(s, [], repl), repl)
  {
    forall k | 0 <= k < |s| ensures MarkedAt(Replace(s, [], repl), repl, k, s[k]) {
      ReplaceEmptyAt(s, repl, k);
    }
    ReplaceEmptyEnds(s, repl);
  }

  lemma InterleaveShift(h: string, t: string, at: nat, n: nat)
    requires at + n < |t|
    ensures (h + t)[|h| + at..|h| + at + n] == t[at..at + n]
    ensures (h + t)[|h| + at + n] == t[at + n]
  {
  }

  /** With an empty `pat`, the text ends with a final copy of `repl`. */
  lemma {:induction false} ReplaceEmptyEnds(s: string, repl: string)
    ensures EndsWith(Replace(s, [], repl), repl)
    decreases |s|
  {
    if s != [] {
      ReplaceEmptyEnds(s[1..], repl);
      assert Interleave(s, repl) == (repl + [s[0]]) + Interleave(s[1..], repl);
      EndsWithAfter(repl + [s[0]], Interleave(s[1..], repl), repl);
    }
  }

  lemma EndsWithAfter(h: string, t: string, u: string)
    requires EndsWith(t, u)
    ensures EndsWith(h + t, u)
  {
    assert (h + t)[|h + t| - |u|..] == t[|t| - |u|..];
  }

  /** The number of leading characters of `s` that are not separators. */
  function RunLength(s: string, seps: set<char>): (n: nat)
    ensures n <= |s| && (n == |s| || s[n] in seps)
    ensures s != [] && s[0] !in seps ==> n > 0
    decreases |s|
  {
    if s == [] || s[0] in seps then 0 else 1 + RunLength(s[1..], seps)
  }

  lemma {:induction false} RunLengthNoSep(s: string, seps: set<char>)
    ensures forall k :: 0 <= k < RunLength(s, seps) ==> s[k] !in seps
    decreases |s|
  {
    if s != [] && s[0] !in seps {
      RunLengthNoSep(s[1..], seps);
      assert forall k :: 1 <= k < RunLength(s, seps) ==> s[k] == s[1..][k - 1];
    }
  }

  /** A non-empty run free of separators. */
  predicate IsRun(w: string, seps: set<char>) {
    w != [] && forall k :: 0 <= k < |w| ==> w[k] !in seps
  }

  /** The maximal runs of non-separator characters, left to right. */
  function Runs(s: string, seps: set<char>): seq<string>
    decreases |s|
  {
    var t := LStrip(s, seps);
    if t == [] then []
    else
      var n := RunLength(t, seps);
      [t[..n]] + Runs(t[n..], seps)
  }

  /** `s.split()`: the maximal runs of non-whitespace characters, left to right. */
  function Words(s: string): seq<string> {
    Runs(s, Whitespace)
  }

  /** A word as `str.split()` produces it: non-empty and free of whitespace. */
  predicate IsWord(w: string) {
    IsRun(w, Whitespace)
  }

  /** Every piece is a run. */
  lemma {:induction false} RunsAreRuns(s: string, seps: set<char>)
    ensures forall i :: 0 <= i < |Runs(s, seps)| ==> IsRun(Runs(s, seps)[i], seps)
    decreases |s|
  {
    var t := LStrip(s, seps);
    if t != [] {
      var n := RunLength(t, seps);
      RunLengthNoSep(t, seps);
      assert IsRun(t[..n], seps);
      RunsAreRuns(t[n..], seps);
      var ws := Runs(s, seps);
      assert ws == [t[..n]] + Runs(t[n..], seps);
      assert forall i :: 1 <= i < |ws| ==> ws[i] == Runs(t[n..], seps)[i - 1];
    }
  }

  /** Every piece `str.split()` returns is a word. */
  lemma WordsAreWords(s: string)
    ensures forall i :: 0 <= i < |Words(s)| ==> IsWord(Words(s)[i])
  {
    RunsAreRuns(s, Whitespace);
  }

  /** Every piece is a stretch of the original string. */
  lemma {:induction false} RunOccurs(s: string, seps: set<char>, i: nat)
    requires i < |Runs(s, seps)|
    ensures Occurs(s, Runs(s, seps)[i])
    decreases |s|
  {
    var p, w, rest := RunsHead(s, seps);
    if i == 0 {
      OccursInMiddle(p, w, rest);
    } else {
      RunOccurs(rest, seps, i - 1);
      LaterOccurs(s, p, w, rest, Runs(rest, seps)[i - 1]);
    }
  }

  /** The first run with what lies before and after it. */
  lemma RunsHead(s: string, seps: set<char>) returns (p: string, w: string, rest: string)
    requires Runs(s, seps) != []
    ensures s == p + w + rest && w != [] && Runs(s, seps) == [w] + Runs(rest, seps)
  {
    var t := LStrip(s, seps);
    assert t != [];
    var n := RunLength(t, seps);
    assert Runs(s, seps) == [t[..n]] + Runs(t[n..], seps);
    p := LStripParts(s, seps);
    w, rest := t[..n], t[n..];
    assert t == w + rest;
    Regroup(p, w, rest, t);
  }

  lemma LaterOccurs(s: string, p: string, w: string, rest: string, u: string)
    requires s == p + w + rest && Occurs(rest, u)
    ensures Occurs(s, u)
  {
    OccursInMiddle(p + w, rest, []);
    assert p + w + rest + [] == s;
    OccursTrans(s, rest, u);
  }

  /** Every word `str.split()` returns occurs in the string. */
  lemma WordsOccur(s: string)
    ensures forall i :: 0 <= i < |Words(s)| ==> Occurs(s, Words(s)[i])
  {
    forall i | 0 <= i < |Words(s)| ensures Occurs(s, Words(s)[i]) {
      RunOccurs(s, Whitespace, i);
    }
  }

  /** Leading separators do not change the runs. */
  lemma RunsSkipSeps(p: string, s: string, seps: set<char>)
    requires AllIn(p, seps)
    ensures Runs(p + s, seps) == Runs(s, seps)
  {
    LStripAfterSeps(p, s, seps);
  }

  /** Separators in front of a text go with the text's own leading separators. */
  lemma LStripAfterSeps(p: string, s: string, seps: set<char>)
    requires AllIn(p, seps)
    ensures LStrip(p + s, seps) == LStrip(s, seps)
  {
    var m := LStripParts(s, seps);
    AllInAppend(p, m, seps);
    Regroup(p, m, LStrip(s, seps), s);
    LStripSkip(p + m, LStrip(s, seps), seps);
  }

  lemma Regroup(a: string, b: string, c: string, s: string)
    requires s == b + c
    ensures a + s == (a + b) + c
  {
  }

  lemma AllInAppend(a: string, b: string, chars: set<char>)
    requires AllIn(a, chars) && AllIn(b, chars)
    ensures AllIn(a + b, chars)
  {
    forall k | 0 <= k < |a + b| ensures (a + b)[k] in chars {
      if k < |a| { assert (a + b)[k] == a[k]; } else { assert (a + b)[k] == b[k - |a|]; }
    }
  }

  /** A run followed by nothing or by a separator has exactly its own length as run length. */
  lemma {:induction false} RunLengthOf(w: string, rest: string, seps: set<char>)
    requires forall k :: 0 <= k < |w| ==> w[k] !in seps
    requires rest == [] || rest[0] in seps
    ensures RunLength(w + rest, seps) == |w|
    decreases |w|
  {
    if w != [] {
      assert (w + rest)[1..] == w[1..] + rest;
      RunLengthOf(w[1..], rest, seps);
    }
  }

  /** A run followed by nothing or by a separator is the first run. */
  lemma RunsCons(w: string, rest: string, seps: set<char>)
    requires IsRun(w, seps) && (rest == [] || rest[0] in seps)
    ensures Runs(w + rest, seps) == [w] + Runs(rest, seps)
  {
    LStripSkip([], w + rest, seps);
    assert [] + (w + rest) == w + rest;
    RunLengthOf(w, rest, seps);
    assert (w + rest)[..|w|] == w;
    assert (w + rest)[|w|..] == rest;
  }

  lemma RunsOfJoinStep(w: string, ws: seq<string>, c: char, seps: set<char>)
    requires IsRun(w, seps) && |ws| >= 1 && c in seps
    ensures Runs(Join([w] + ws, [c]), seps) == [w] + Runs(Join(ws, [c]), seps)
  {
    var tail := Join(ws, [c]);
    assert ([w] + ws)[1..] == ws;
    assert Join([w] + ws, [c]) == w + ([c] + tail);
    assert AllIn([c], seps);
    RunsCons(w, [c] + tail, seps);
    RunsSkipSeps([c], tail, seps);
  }

  /** Joining runs with one separator and splitting again gives the runs back. */
  lemma {:induction false} RunsOfJoin(ws: seq<string>, c: char, seps: set<char>)
    requires c in seps && forall i :: 0 <= i < |ws| ==> IsRun(ws[i], seps)
    ensures Runs(Join(ws, [c]), seps) == ws
    decreases |ws|
  {
    if |ws| == 1 {
      RunsCons(ws[0], [], seps);
      assert ws[0] + [] == ws[0];
    } else if |ws| > 1 {
      RunsOfJoinStep(ws[0], ws[1..], c, seps);
      RunsOfJoin(ws[1..], c, seps);
      assert ws == [ws[0]] + ws[1..];
    }
  }

  /** Round trip: the words of a single-space join of words are those words. */
  lemma WordsOfJoin(ws: seq<string>)
    requires forall i :: 0 <= i < |ws| ==> IsWord(ws[i])
    ensures Words(Join(ws, " ")) == ws
  {
    assert ' ' in Whitespace;
    RunsOfJoin(ws, ' ', Whitespace);
  }

  /** The decimal digit for `d`. */
  function Digit(d: nat): (c: char)
    requires d < 10
    ensures '0' <= c <= '9' && c as int - '0' as int == d
  {
    ('0' as int + d) as char
  }

  /** `str(n)` for a natural number: decimal digits, no leading zero. */
  function Decimal(n: nat): (r: string)
    ensures |r| >= 1 && (r[0] == '0' ==> n == 0)
    ensures forall k :: 0 <= k < |r| ==> '0' <= r[k] <= '9'
  {
    if n < 10 then [Digit(n)] else Decimal(n / 10) + [Digit(n % 10)]
  }

  /** The number a string of decimal digits denotes. */
  function DecimalValue(s: string): nat
    requires forall k :: 0 <= k < |s| ==> '0' <= s[k] <= '9'
  {
    if s == [] then 0
    else DecimalValue(s[..|s| - 1]) * 10 + (s[|s| - 1] as int - '0' as int)
  }

  /** Round trip: the decimal rendering of `n` denotes `n`. */
  lemma {:induction false} DecimalRoundTrip(n: nat)
    ensures DecimalValue(Decimal(n)) == n
  {
    if n >= 10 {
      DecimalRoundTrip(n / 10);
      var r := Decimal(n);
      assert r[..|r| - 1] == Decimal(n / 10);
    }
  }
}

=== FILE: wrappers.dfy ===
/** Option: Python's `None`-or-value, used wherever the source returns or tests `None`. */
module Wrappers {

  datatype Option<+T> = None | Some(value: T)
}
